=== FILE: README.md ===
# Post analyser front-end: upload gate and section parser

This project is a Dafny model of the front-end logic of a social-media post
analyser. The analysis page takes a dropped or picked document, sends it to a
back-end and shows the returned analysis in three panels. Each panel's text is
cut into titled sections before it is displayed.

The repository also ships `DropUpload`, a separate, reusable upload widget
whose `validate`/`handleFiles` gate checks a file's type and size before
handing it on. The analysis page does not use it: its own file input and drop
zone (frontend/src/App.jsx:76-96) call `handleFileChange`, which posts the
first file with no type or size check (frontend/src/App.jsx:36-51). The model
states the widget's gate on its own terms.

The model covers four pieces:

- **Upload** (`upload.dfy`): `validate` and `handleFiles` of the
  `DropUpload` widget.
  - The `accept` list is split on commas, trimmed and lower-cased.
  - Tokens starting with `.` are matched against the end of the file name.
  - Other tokens lose their first `*` and are searched for in the MIME type.
  - The size limit is `maxSizeMB * 1024 * 1024` bytes.
  - The two error messages are modelled exactly.
  - A missing file fails without a message.
- **Sections** (`sections.dfy`): `parseSections`. Its global regular
  expression is modelled as a deterministic scanner over positions:
  - a heading is a capital, a maximal run of 1 to 100 title characters, and
    a colon;
  - a match starts at the beginning of the text or at a newline;
  - the content runs to the next newline-plus-heading or to the blank tail
    of the text;
  - blank text gives no sections;
  - text without any heading gives one "Notes" section holding the whole
    text.
- **Panels** (`panels.dfy`): the three texts the page builds from the
  back-end's reply.
  - Missing or empty fields are replaced by "N/A", "None" or
    "No rewrite returned.".
  - A failure is replaced by three warnings.
  - These texts are proved to come apart into the expected sections.
- **Text** (`text.dfy`): the JavaScript string operations the code relies on,
  defined once. These are the `\s` class, `trim`, ASCII `toLowerCase`,
  `startsWith`, `endsWith`, `includes`, single-character `replace`,
  `split`, `join`, and decimal rendering of whole numbers.
  `options.dfy` holds the `Option` type that models absent values.

The main results are:

- `Upload.ValidateAcceptsIff`: `validate` accepts exactly the files whose
  type is allowed and whose size is within the limit.
- `Sections.ParseRenderRoundTrip`: rendering sections as
  `"\n" + title + ": " + content` and parsing the result, followed by
  blank space, gives the sections back. This holds for sections whose title
  is a heading title (a capital letter, then 1 to 100 more title characters,
  not ending in a space) and whose content is on one line, not blank and
  already trimmed.
- `Panels.AnalysisSections` and `Panels.RecommendationsSections`: for
  one-line, non-blank field values, the actual panel templates parse into
  their titled fields.

## Model

| member | source | states |
|---|---|---|
| Upload.Validate | frontend/src/components/DropUpload.jsx:15-33 | a verdict is positive exactly when the file is present and no error message is set; a positive verdict means the size is within `maxSizeMB * 1024 * 1024` bytes |
| Upload.ValidateAcceptsIff | frontend/src/components/DropUpload.jsx:15-33 | a present file is accepted if and only if (`accept` is empty or some token matches its name or type) and its size is at most the byte limit |
| Upload.MissingFileRejected | frontend/src/components/DropUpload.jsx:16-17 | a missing file is rejected with the error cleared |
| Upload.EmptyAcceptChecksSizeOnly | frontend/src/components/DropUpload.jsx:18 | with an empty `accept` only the size decides |
| Upload.TypeCheckFirst | frontend/src/components/DropUpload.jsx:18-25 | when no token matches, the verdict is the type error naming the raw `accept` string, whatever the size |
| Upload.SizeBoundary | frontend/src/components/DropUpload.jsx:27-31 | for an allowed type, every size up to and including the byte limit passes with no error, and every larger size fails with "File too large. Max N MB." |
| Upload.TypeAllowed | frontend/src/components/DropUpload.jsx:18-26 | the type check passes when `accept` is empty, and otherwise when some token accepts the file's name or its MIME type |
| Upload.MaxBytes | frontend/src/components/DropUpload.jsx:27 | the byte limit is the megabyte limit times 1024 times 1024 |
| Upload.TypeError | frontend/src/components/DropUpload.jsx:23 | the type error is "Invalid file type. Allowed: " followed by the raw `accept` string |
| Upload.SizeError | frontend/src/components/DropUpload.jsx:29 | the size error is "File too large. Max ", the limit in decimal, then " MB." |
| Upload.Normalize | frontend/src/components/DropUpload.jsx:19 | one token per comma-separated piece, each the lower-cased trim of its piece |
| Upload.AllowListTokens | frontend/src/components/DropUpload.jsx:19 | every token is trimmed, already lower-case and free of commas |
| Upload.AllowList | frontend/src/components/DropUpload.jsx:19 | `accept` split on commas, each piece trimmed and lower-cased; there is always at least one token |
| Upload.NameMatches | frontend/src/components/DropUpload.jsx:20 | a token matches a name when it starts with "." and the lower-cased name ends with it |
| Upload.TypeMatches | frontend/src/components/DropUpload.jsx:21 | a token matches a MIME type when it does not start with "." and the lower-cased type contains the token with its first `*` removed |
| Upload.AnyNameMatch | frontend/src/components/DropUpload.jsx:20 | true exactly when some token matches the name |
| Upload.AnyTypeMatch | frontend/src/components/DropUpload.jsx:21 | true exactly when some token matches the MIME type |
| Upload.ExtensionTokenAccepts | frontend/src/components/DropUpload.jsx:20-21 | a token starting with "." matches exactly the names ending in it, ignoring case, and never a MIME type |
| Upload.WildcardTokenAccepts | frontend/src/components/DropUpload.jsx:21 | a token `family*` matches every MIME type containing `family`, ignoring case |
| Upload.RemoveFirstAfter | frontend/src/components/DropUpload.jsx:21 | removing the first `*` from `family*` gives `family` back |
| Upload.NameMatchIgnoresCase | frontend/src/components/DropUpload.jsx:20 | names that agree after lower-casing match the same tokens |
| Upload.ValidateIgnoresCase | frontend/src/components/DropUpload.jsx:15-33 | files whose name and type agree after lower-casing, with equal sizes, get the same verdict |
| Upload.BlankTokenAcceptsAll | frontend/src/components/DropUpload.jsx:19-21 | a blank piece in `accept` becomes the empty token, which every MIME type contains, so any file within the size limit passes |
| Upload.TrailingCommaAcceptsAll | frontend/src/components/DropUpload.jsx:19-21 | appending a comma to any `accept` lets every file within the size limit through |
| Upload.FirstFile | frontend/src/components/DropUpload.jsx:36 | yields a file exactly when the list is present and non-empty, and then it is the first one |
| Upload.HandleFiles | frontend/src/components/DropUpload.jsx:35-39 | the first file is checked by `validate`, and it is handed on exactly when the verdict is positive |
| Upload.SelectedIffValid | frontend/src/components/DropUpload.jsx:35-39 | a file is handed on if and only if the list is non-empty and its first file passes `validate` |
| Text.IsSpace | frontend/src/App.jsx:16-17 | the JavaScript `\s` class, which is also what `trim` strips: space, tab to carriage return, no-break space, the Unicode space separators, line and paragraph separators, and the byte-order mark |
| Text.StartsWith | frontend/src/components/DropUpload.jsx:20-21 | `startsWith`: the pattern is no longer than the text and equals its prefix of the same length |
| Text.EndsWith | frontend/src/components/DropUpload.jsx:20 | `endsWith`: the pattern is no longer than the text and equals its suffix of the same length |
| Text.Trim | frontend/src/App.jsx:16 | the result has no leading or trailing `\s`, is no longer than its input, and is empty exactly when the input is all `\s` |
| Text.TrimIs | frontend/src/App.jsx:21 | trimming yields exactly the slice between the leading and the trailing blanks |
| Text.TrimIdempotent | frontend/src/App.jsx:21 | trimming twice is trimming once |
| Text.TrimMargins | frontend/src/App.jsx:21 | blank margins on both sides do not change the trimmed text |
| Text.ToLower | frontend/src/components/DropUpload.jsx:19 | same length, each letter A-Z moved to a-z and every other character kept |
| Text.ToLowerIdempotent | frontend/src/components/DropUpload.jsx:19 | lower-casing twice is lower-casing once |
| Text.Includes | frontend/src/components/DropUpload.jsx:21 | true exactly when the pattern occurs at some position |
| Text.RemoveFirst | frontend/src/components/DropUpload.jsx:21 | only the first occurrence of the character is removed, and nothing is removed when it is absent |
| Text.SplitOn | frontend/src/components/DropUpload.jsx:19 | at least one piece, and no piece holds the separator |
| Text.SplitJoinRoundTrip | frontend/src/components/DropUpload.jsx:19 | joining the pieces with the separator gives back the text |
| Text.SplitTrailingSeparator | frontend/src/components/DropUpload.jsx:19 | a trailing separator adds exactly one empty piece |
| Text.Join | frontend/src/App.jsx:57 | joining nothing is empty, joining one string gives it back, and every character of the result outside the separator comes from one of the joined strings |
| Text.JoinEmptyIff | frontend/src/App.jsx:57 | a join is empty exactly when there is nothing to join or just one empty string |
| Text.NatToDecimal | frontend/src/components/DropUpload.jsx:29 | at least one digit, only digits, and no leading zero |
| Text.DecimalRoundTrip | frontend/src/components/DropUpload.jsx:29 | the decimal rendering reads back as the same number |
| Sections.IsTitleChar | frontend/src/App.jsx:17 | the class `[\w\s/&+-]`: an ASCII letter, digit or underscore, a `\s` character, or one of `/`, `&`, `+`, `-` |
| Sections.TitleRun | frontend/src/App.jsx:17 | the length of the run of title characters from a position, which stays within the text; `Sections.TitleRunMaximal` states that the run cannot be extended |
| Sections.StopsAt | frontend/src/App.jsx:17 | the look-ahead that ends a section's content holds at a position: only blank space remains, or a newline follows with a heading right after it |
| Sections.IsHeadingAt | frontend/src/App.jsx:17 | the heading group `[A-Z][\w\s/&+-]{1,100}?:` at a position: a capital, 1 to 100 title characters and a colon right after them |
| Sections.MatchesAt | frontend/src/App.jsx:17 | the anchor (start of text or a newline) followed by a heading: a heading at position 0, or a newline with a heading right after it |
| Sections.ContentEnd | frontend/src/App.jsx:17 | the end of the lazy content group, between its start and the end of the text; `Sections.ContentEndFirstStop` states that it is the first place where the look-ahead holds |
| Sections.MatchFrom | frontend/src/App.jsx:17 | the match at an anchor starts there and its positions are ordered within the text; `Sections.MatchFromValid` states what the groups satisfy |
| Sections.Scan | frontend/src/App.jsx:19-22 | the `exec` loop: every match it yields starts at or after where the search began and lies within the text |
| Sections.TitleRunMaximal | frontend/src/App.jsx:17 | the title run holds only title characters and stops before a character that is not one |
| Sections.HeadingIsLazyMatch | frontend/src/App.jsx:17 | a heading by the deterministic definition is exactly a capital plus some lazy `{1,100}?` run that ends at a colon |
| Sections.LazyTitleUnique | frontend/src/App.jsx:17 | the lazy title quantifier has at most one way to reach the colon |
| Sections.ContentEndFirstStop | frontend/src/App.jsx:17 | the lazy content group stops at the first place where the look-ahead holds |
| Sections.ContentEndAtHeading | frontend/src/App.jsx:17 | on a single line of content, the content stops exactly at the first newline followed by a heading |
| Sections.ContentEndAtBlankTail | frontend/src/App.jsx:17 | on a single line of content followed by blank space, the content stops no later than that blank tail, and only blank space follows it |
| Sections.MatchFromValid | frontend/src/App.jsx:17 | a match has its heading right after the anchor, the colon after the title, blank space before the content, and the look-ahead at the content's end |
| Sections.ScanFindsMatches | frontend/src/App.jsx:17-22 | every match the loop yields is a match of the pattern at its position |
| Sections.ScanSkipsToFirstMatch | frontend/src/App.jsx:17-20 | no match of the pattern is skipped before the first one found, so text before the first heading belongs to no section |
| Sections.ScanEmptyIff | frontend/src/App.jsx:20 | the loop finds nothing exactly when the pattern matches nowhere |
| Sections.ScanValid | frontend/src/App.jsx:17-22 | every match the loop yields satisfies the pattern: anchor, heading, colon, skipped spaces and the first-stop content end |
| Sections.ScanTiles | frontend/src/App.jsx:20 | each match starts where the previous one's content ended |
| Sections.ScanEndsInBlank | frontend/src/App.jsx:17 | after the last match only blank space is left |
| Sections.MatchesInSourceOrder | frontend/src/App.jsx:20-22 | sections come out in source order and do not overlap |
| Sections.SectionOf | frontend/src/App.jsx:21 | a section's content is trimmed and no longer than the matched body |
| Sections.MatchedTitle | frontend/src/App.jsx:21 | the title is the trimmed heading and is never empty, so "Untitled" is never used |
| Sections.ParseSections | frontend/src/App.jsx:15-24 | the result is empty exactly when the text is blank |
| Sections.ParsedSections | frontend/src/App.jsx:20-23 | with a heading present, the sections are those of the matches, with valid titles and trimmed contents |
| Sections.NotesFallbackIff | frontend/src/App.jsx:23 | the single untrimmed "Notes" section is returned exactly when the text is not blank and holds no heading |
| Sections.SingleLineIsNotes | frontend/src/App.jsx:23 | a non-blank line that does not start with a capital becomes one "Notes" section |
| Sections.ParseRendered | frontend/src/App.jsx:15-24 | rendered sections parse back to as many sections, with the same titles and trimmed contents |
| Sections.ParseRenderRoundTrip | frontend/src/App.jsx:15-24 | parsing rendered sections with trimmed one-line contents gives them back exactly |
| Panels.OrElse | frontend/src/App.jsx:55-56 | JavaScript's falsy-or on a string that may be missing: the result is the fallback or the present value, and is empty only if the fallback is |
| Panels.JoinedOr | frontend/src/App.jsx:57 | a list that may be missing, joined, with the fallback for an empty join: never empty unless the fallback is |
| Panels.SentimentShown | frontend/src/App.jsx:55 | the sentiment as shown: the value when present and non-empty, otherwise "N/A" |
| Panels.ReadabilityShown | frontend/src/App.jsx:56 | the readability as shown: the value when present and non-empty, otherwise "N/A" |
| Panels.IssuesShown | frontend/src/App.jsx:57 | the issues joined with ", ", or "None" when the list is missing or the join is empty |
| Panels.HashtagsShown | frontend/src/App.jsx:61 | the hashtags of the suggestions joined with a space, or "N/A" when they are missing or the join is empty |
| Panels.CallToActionShown | frontend/src/App.jsx:62 | the call to action of the suggestions when present and non-empty, otherwise "N/A" |
| Panels.AnalysisText | frontend/src/App.jsx:54-58 | the analysis template: Sentiment, Readability and Issues lines with their shown values, then the closing indentation |
| Panels.RecommendationsText | frontend/src/App.jsx:60-63 | the recommendations template: Hashtags and Call-to-Action lines with their shown values, then the closing indentation |
| Panels.RewriteText | frontend/src/App.jsx:65 | the improved post when present and non-empty, otherwise "No rewrite returned." |
| Panels.Display | frontend/src/App.jsx:52-70 | the three warnings are shown exactly when the request failed, and no panel is ever empty |
| Panels.MissingAnalysisIsEmpty | frontend/src/App.jsx:52 | a reply without `analysis` shows the same as an empty analysis, and the rewrite panel shows its placeholder |
| Panels.OrElseFalsy | frontend/src/App.jsx:55-56 | a present, non-empty value is shown as it is; a missing or empty one shows the placeholder |
| Panels.JoinedOrFallback | frontend/src/App.jsx:57 | the list placeholder appears exactly when the list is missing, empty or one empty string; otherwise the non-empty join is shown |
| Panels.NoIssuesShowNone | frontend/src/App.jsx:57 | issues read "None" when there are none |
| Panels.NoColonIsNotes | frontend/src/App.jsx:23 | a non-blank text without a colon is one "Notes" section |
| Panels.ErrorTextsAreNotes | frontend/src/App.jsx:66-70 | after a failure each panel is one "Notes" section holding its warning |
| Panels.NoRewriteIsNotes | frontend/src/App.jsx:65 | without an improved post the rewrite panel is one "Notes" section with "No rewrite returned." |
| Panels.AnalysisRendered | frontend/src/App.jsx:54-58 | the analysis template is its three sections rendered in order, then blank space |
| Panels.RecommendationsRendered | frontend/src/App.jsx:60-63 | the recommendations template is its two sections rendered in order, then blank space |
| Panels.AnalysisSections | frontend/src/App.jsx:54-58 | with one-line values, the analysis text parses into Sentiment, Readability and Issues, each with its trimmed value |
| Panels.RecommendationsSections | frontend/src/App.jsx:60-63 | with one-line values, the recommendations text parses into Hashtags and Call-to-Action, each with its trimmed value |
| Panels.EmptyAnalysisSections | frontend/src/App.jsx:52-63 | an empty analysis parses into the five sections with "N/A" and "None" placeholders |

## Left out

- The analysis page's own upload path (frontend/src/App.jsx:36-51, 76-96) has no type or size check and does not call `DropUpload`; only the widget's gate is modelled.
- The back-end (backend/main.py) and the request helper are not part of this model. The reply is a parameter (`Panels.Reply`).
- The network call, `FormData`, the loading flag, React state, the drag-over highlight and the clipboard are left out. They are I/O or rendering.
- `setError("")` at the start of `validate` is not modelled as a state change. The verdict's `error` field is the message the widget ends up showing, and it is empty for a missing file and for a valid one.
- `onFileSelected` is not modelled. `HandleFiles` returns the file it would be called with; the call is asynchronous and its body is not part of this model.
- `maxSizeMB` is a whole number (`nat`) here. JavaScript allows fractional and negative values and prints them differently.
- `Text.NatToDecimal` renders only whole numbers. JavaScript switches to exponent notation at or above 10^21; that is not modelled.
- `Text.ToLower` lower-cases only the ASCII letters A-Z. JavaScript's `toLowerCase` also maps other Unicode letters, and a few of those change length.
- Reply fields of a type other than string or string list are not modelled. A number or boolean in `sentiment`, `readability` or `call-to-action` is printed by its template literal (and `0` or `false` shows the placeholder), which the model does not represent. A truthy non-string `improved_post` is stored as the rewrite text unchanged (frontend/src/App.jsx:65); rendering then passes it to `parseSections`, whose `text.trim()` throws (frontend/src/App.jsx:16, 115) outside the request's try/catch, so the page fails to render instead of showing the warnings. A non-array `issues` (frontend/src/App.jsx:57) or `hashtags` (frontend/src/App.jsx:61) has no `.join`, so the page throws and lands in the failure path of frontend/src/App.jsx:66-70; the model reaches that path only through `Panels.Reply.Failed`.
- Fields are modelled as absent or as strings. JavaScript also treats `0`, `false` and `null` as falsy in `||`.
- The "Untitled" fallback of `parseSections` is modelled but cannot occur. `Sections.MatchedTitle` proves every matched title is non-empty.
- `parseSections`' default argument (`text = ""`) is not modelled. Every caller passes a string.
- The regular expression's title class is modelled for ASCII `\w`, and `\s` for its JavaScript set. Other Unicode letters are not title characters, as in the code.
- The fallback "Notes" section keeps the text untrimmed, as frontend/src/App.jsx:23 does.
- A heading with nothing after its colon takes the next line as its content, because `\s*` consumes the newline. So `"A1:\nB1: x"` yields the single section `A1` with content `"B1: x"`. The model reproduces this.
- Panels.AnalysisSections: the statement covers only values on one line that are not blank. Other values still parse, but a value holding a newline followed by a heading splits its section.
- Panels.RecommendationsSections: the statement covers only values on one line that are not blank, for the same reason.

=== FILE: options.dfy ===
/** An optional value: a JavaScript property that may be `undefined`. */
module Options {

  datatype Option<+T> = None | Some(value: T)
}

=== FILE: panels.dfy ===
/**
 The three result panels of the page (frontend/src/App.jsx, lines 52-70):
 after an upload the analysis reply is turned into an analysis text, a
 recommendations text and a rewrite text, each absent or empty field
 replaced by a fixed placeholder, and any failure replaced by three fixed
 warnings. The panels are later cut into sections by `parseSections`.
 */
module Panels {
  import opened Options
  import opened Text
  import opened Sections

  /** `analysis.suggestions` of the reply. */
  datatype Suggestions = Suggestions(
    hashtags: Option<seq<string>>,
    callToAction: Option<string>,
    improvedPost: Option<string>)

  /** `analysis` of the reply; every field may be missing. */
  datatype Analysis = Analysis(
    sentiment: Option<string>,
    readability: Option<string>,
    issues: Option<seq<string>>,
    suggestions: Option<Suggestions>)

  /** How the request ended: the fetch failed, the status was not ok or the
      body was not JSON, or a JSON body whose `analysis` may be missing. */
  datatype Reply = Failed | Replied(analysis: Option<Analysis>)

  /** The analysis, recommendations and rewrite texts, in that order. */
  datatype Texts = Texts(analysis: string, recommendations: string, rewrite: string)

  /** `{}`: an analysis with no fields. */
  const NoAnalysis := Analysis(None, None, None, None)

  /** The whitespace that ends the two multi-line template literals: their
      closing line's indentation. */
  const Indent := "            "

  const AnalysisError := "\U{26A0}\U{FE0F} Error fetching analysis."
  const RecommendationsError := "\U{26A0}\U{FE0F} Error fetching recommendations."
  const RewriteError := "\U{26A0}\U{FE0F} Error fetching rewrite."
  const NoRewrite := "No rewrite returned."

  /** `value || fallback` for a string that may be missing: a missing and an
      empty string are both falsy. */
  function OrElse(value: Option<string>, fallback: string): (r: string)
    ensures r == fallback || (value.Some? && r == value.value)
    ensures r == [] ==> fallback == []
  {
    if value.Some? && value.value != [] then value.value else fallback
  }

  /** `(items || []).join(sep) || fallback`. */
  function JoinedOr(items: Option<seq<string>>, sep: string, fallback: string): (r: string)
    ensures r == [] ==> fallback == []
  {
    var joined := Join(if items.Some? then items.value else [], sep);
    if joined == [] then fallback else joined
  }

  function Hashtags(a: Analysis): Option<seq<string>> {
    if a.suggestions.Some? then a.suggestions.value.hashtags else None
  }

  function CallToAction(a: Analysis): Option<string> {
    if a.suggestions.Some? then a.suggestions.value.callToAction else None
  }

  function ImprovedPost(a: Analysis): Option<string> {
    if a.suggestions.Some? then a.suggestions.value.improvedPost else None
  }

  /** What the three lines of the analysis text show. */
  function SentimentShown(a: Analysis): string {
    OrElse(a.sentiment, "N/A")
  }

  function ReadabilityShown(a: Analysis): string {
    OrElse(a.readability, "N/A")
  }

  function IssuesShown(a: Analysis): string {
    JoinedOr(a.issues, ", ", "None")
  }

  /** What the two lines of the recommendations text show. */
  function HashtagsShown(a: Analysis): string {
    JoinedOr(Hashtags(a), " ", "N/A")
  }

  function CallToActionShown(a: Analysis): string {
    OrElse(CallToAction(a), "N/A")
  }

  function AnalysisText(a: Analysis): string {
    "\nSentiment: " + SentimentShown(a)
    + "\nReadability: " + ReadabilityShown(a)
    + "\nIssues: " + IssuesShown(a)
    + "\n" + Indent
  }

  function RecommendationsText(a: Analysis): string {
    "\nHashtags: " + HashtagsShown(a)
    + "\nCall-to-Action: " + CallToActionShown(a)
    + "\n" + Indent
  }

  function RewriteText(a: Analysis): string {
    OrElse(ImprovedPost(a), NoRewrite)
  }

  /** The texts the page shows after an upload. */
  function Display(reply: Reply): (t: Texts)
    ensures reply.Failed? <==> t == Texts(AnalysisError, RecommendationsError, RewriteError)
    ensures t.analysis != [] && t.recommendations != [] && t.rewrite != []
  {
    match reply
    case Failed =>
      Texts(AnalysisError, RecommendationsError, RewriteError)
    case Replied(data) =>
      var a := if data.Some? then data.value else NoAnalysis;
      assert AnalysisText(a)[0] == '\n';
      assert RecommendationsText(a)[0] == '\n';
      Texts(AnalysisText(a), RecommendationsText(a), RewriteText(a))
  }

  /** A reply without `analysis` shows the same as an empty analysis. */
  lemma MissingAnalysisIsEmpty()
    ensures Display(Replied(None)) == Display(Replied(Some(NoAnalysis)))
    ensures Display(Replied(None)).rewrite == NoRewrite
  {
  }

  /** A present, non-empty string is shown as it is; otherwise the
      placeholder is. */
  lemma OrElseFalsy(value: Option<string>, fallback: string)
    ensures value.Some? && value.value != [] ==> OrElse(value, fallback) == value.value
    ensures value.None? || value.value == [] ==> OrElse(value, fallback) == fallback
  {
  }

  /** The placeholder of a joined list is shown exactly when there is no
      list, an empty list, or a list of one empty string; otherwise the
      join is. */
  lemma JoinedOrFallback(items: Option<seq<string>>, sep: string, fallback: string)
    requires sep != []
    ensures items.None? || |items.value| == 0 || (|items.value| == 1 && items.value[0] == []) ==>
      JoinedOr(items, sep, fallback) == fallback
    ensures items.Some? && !(|items.value| == 0 || (|items.value| == 1 && items.value[0] == [])) ==>
      JoinedOr(items, sep, fallback) == Join(items.value, sep) && JoinedOr(items, sep, fallback) != []
  {
    if items.Some? {
      JoinEmptyIff(items.value, sep);
    }
  }

  /** Issues read "None" when there are none to show. */
  lemma NoIssuesShowNone(a: Analysis)
    requires a.issues.None? || a.issues.value == [] || a.issues.value == [[]]
    ensures IssuesShown(a) == "None"
  {
    JoinedOrFallback(a.issues, ", ", "None");
  }

  /** A text with no colon holds no heading. */
  lemma NoColonNoHeading(s: string)
    requires ':' !in s
    ensures !HasHeading(s)
  {
    forall p | 0 <= p < |s|
      ensures !MatchesAt(s, p)
    {
      if p + 1 < |s| {
        var c := ColonOf(s, p + 1);
        assert c < |s| ==> s[c] != ':';
      }
      var c0 := ColonOf(s, 0);
      assert c0 < |s| ==> s[c0] != ':';
    }
  }

  /** A non-blank text with no colon is shown as one "Notes" section
      holding the whole text. */
  lemma NoColonIsNotes(s: string)
    requires ':' !in s && !AllSpace(s)
    ensures ParseSections(s) == [Section("Notes", s)]
  {
    NoColonNoHeading(s);
    NotesFallbackIff(s);
  }

  /** Each warning is shown as a single "Notes" section. */
  lemma WarningIsNotes(w: string)
    requires w == AnalysisError || w == RecommendationsError || w == RewriteError
    ensures ParseSections(w) == [Section("Notes", w)]
  {
    assert !SpaceAt(w, 0);
    NoColonIsNotes(w);
  }

  /** After a failure each panel shows its warning as a single "Notes"
      section. */
  lemma ErrorTextsAreNotes()
    ensures var t := Display(Failed);
      && ParseSections(t.analysis) == [Section("Notes", AnalysisError)]
      && ParseSections(t.recommendations) == [Section("Notes", RecommendationsError)]
      && ParseSections(t.rewrite) == [Section("Notes", RewriteError)]
  {
    WarningIsNotes(AnalysisError);
    WarningIsNotes(RecommendationsError);
    WarningIsNotes(RewriteError);
  }

  /** Without an improved post the rewrite panel shows one "Notes" section
      with the placeholder. */
  lemma NoRewriteIsNotes(a: Analysis)
    requires ImprovedPost(a).None? || ImprovedPost(a).value == []
    ensures ParseSections(RewriteText(a)) == [Section("Notes", NoRewrite)]
  {
    assert !SpaceAt(NoRewrite, 0);
    NoColonIsNotes(NoRewrite);
  }

  /** A value that survives as the content of a section: on one line and
      not blank. */
  predicate OneLine(v: string) {
    '\n' !in v && !AllSpace(v)
  }

  lemma IndentIsBlank()
    ensures AllSpace("\n" + Indent)
  {
    var s := "\n" + Indent;
    forall k | 0 <= k < |s|
      ensures SpaceAt(s, k)
    {
    }
  }

  /** The sections the analysis text is laid out from, before trimming. */
  function AnalysisLayout(a: Analysis): seq<Section> {
    [Section("Sentiment", SentimentShown(a)),
     Section("Readability", ReadabilityShown(a)),
     Section("Issues", IssuesShown(a))]
  }

  /** The sections the recommendations text is laid out from. */
  function RecommendationsLayout(a: Analysis): seq<Section> {
    [Section("Hashtags", HashtagsShown(a)),
     Section("Call-to-Action", CallToActionShown(a))]
  }

  lemma RenderOne(x: Section)
    ensures Render([x]) == RenderSection(x)
  {
    assert [x][1..] == [];
    assert Render([x]) == RenderSection(x) + Render([]);
    assert RenderSection(x) + [] == RenderSection(x);
  }

  lemma RenderTwo(x: Section, y: Section)
    ensures Render([x, y]) == RenderSection(x) + RenderSection(y)
  {
    assert [x, y][1..] == [y];
    RenderOne(y);
  }

  lemma RenderThree(x: Section, y: Section, z: Section)
    ensures Render([x, y, z]) == RenderSection(x) + RenderSection(y) + RenderSection(z)
  {
    assert [x, y, z][1..] == [y, z];
    RenderTwo(y, z);
  }

  /** A line of a template: newline, title, colon, space, value. */
  lemma TemplateLine(t: string, v: string, line: string)
    requires line == "\n" + t + ": "
    ensures RenderSection(Section(t, v)) == line + v
  {
  }

  /** The analysis template is the rendering of its three sections followed
      by blank space. */
  lemma AnalysisRendered(a: Analysis)
    ensures AnalysisText(a) == Render(AnalysisLayout(a)) + ("\n" + Indent)
  {
    var l := AnalysisLayout(a);
    RenderThree(l[0], l[1], l[2]);
    assert "\nSentiment: " == "\n" + "Sentiment" + ": ";
    assert "\nReadability: " == "\n" + "Readability" + ": ";
    assert "\nIssues: " == "\n" + "Issues" + ": ";
    TemplateLine("Sentiment", SentimentShown(a), "\nSentiment: ");
    TemplateLine("Readability", ReadabilityShown(a), "\nReadability: ");
    TemplateLine("Issues", IssuesShown(a), "\nIssues: ");
    var x, y, z := RenderSection(l[0]), RenderSection(l[1]), RenderSection(l[2]);
    assert x + "\nReadability: " + ReadabilityShown(a) + "\nIssues: " == x + "\nReadability: " + (ReadabilityShown(a) + "\nIssues: ");
    assert x + "\nReadability: " + ReadabilityShown(a) == x + ("\nReadability: " + ReadabilityShown(a));
    assert x + y + "\nIssues: " + IssuesShown(a) == x + y + ("\nIssues: " + IssuesShown(a));
    assert x + y + z + "\n" + Indent == x + y + z + ("\n" + Indent);
  }

  /** The recommendations template is the rendering of its two sections
      followed by blank space. */
  lemma RecommendationsRendered(a: Analysis)
    ensures RecommendationsText(a) == Render(RecommendationsLayout(a)) + ("\n" + Indent)
  {
    var l := RecommendationsLayout(a);
    RenderTwo(l[0], l[1]);
    assert "\nHashtags: " == "\n" + "Hashtags" + ": ";
    assert "\nCall-to-Action: " == "\n" + "Call-to-Action" + ": ";
    TemplateLine("Hashtags", HashtagsShown(a), "\nHashtags: ");
    TemplateLine("Call-to-Action", CallToActionShown(a), "\nCall-to-Action: ");
    var x, y := RenderSection(l[0]), RenderSection(l[1]);
    assert x + "\nCall-to-Action: " + CallToActionShown(a) == x + ("\nCall-to-Action: " + CallToActionShown(a));
    assert x + y + "\n" + Indent == x + y + ("\n" + Indent);
  }

  lemma TitlesRecognised()
    ensures IsHeadingTitle("Sentiment") && IsHeadingTitle("Readability") && IsHeadingTitle("Issues")
    ensures IsHeadingTitle("Hashtags") && IsHeadingTitle("Call-to-Action")
  {
  }

  /** Three renderable sections followed by blank space are found again,
      in order, with their contents trimmed. */
  lemma ParseThree(x: Section, y: Section, z: Section, tail: string)
    requires Renderable(x) && Renderable(y) && Renderable(z) && AllSpace(tail)
    ensures ParseSections(Render([x, y, z]) + tail) == [
      Section(x.title, Trim(x.content)),
      Section(y.title, Trim(y.content)),
      Section(z.title, Trim(z.content))]
  {
    var l := [x, y, z];
    ParseRendered(l, tail);
    var r := ParseSections(Render(l) + tail);
    assert r[0] == Section(l[0].title, Trim(l[0].content));
    assert r[1] == Section(l[1].title, Trim(l[1].content));
    assert r[2] == Section(l[2].title, Trim(l[2].content));
  }

  /** Two renderable sections followed by blank space are found again, in
      order, with their contents trimmed. */
  lemma ParseTwo(x: Section, y: Section, tail: string)
    requires Renderable(x) && Renderable(y) && AllSpace(tail)
    ensures ParseSections(Render([x, y]) + tail) == [
      Section(x.title, Trim(x.content)),
      Section(y.title, Trim(y.content))]
  {
    var l := [x, y];
    ParseRendered(l, tail);
    var r := ParseSections(Render(l) + tail);
    assert r[0] == Section(l[0].title, Trim(l[0].content));
    assert r[1] == Section(l[1].title, Trim(l[1].content));
  }

  /** The analysis text is cut into its three sections, titled "Sentiment",
      "Readability" and "Issues", each holding its trimmed value. */
  lemma AnalysisSections(a: Analysis)
    requires OneLine(SentimentShown(a)) && OneLine(ReadabilityShown(a)) && OneLine(IssuesShown(a))
    ensures ParseSections(AnalysisText(a)) == [
      Section("Sentiment", Trim(SentimentShown(a))),
      Section("Readability", Trim(ReadabilityShown(a))),
      Section("Issues", Trim(IssuesShown(a)))]
  {
    var l := AnalysisLayout(a);
    AnalysisRendered(a);
    TitlesRecognised();
    IndentIsBlank();
    ParseThree(l[0], l[1], l[2], "\n" + Indent);
  }

  /** The recommendations text is cut into its two sections, titled
      "Hashtags" and "Call-to-Action", each holding its trimmed value. */
  lemma RecommendationsSections(a: Analysis)
    requires OneLine(HashtagsShown(a)) && OneLine(CallToActionShown(a))
    ensures ParseSections(RecommendationsText(a)) == [
      Section("Hashtags", Trim(HashtagsShown(a))),
      Section("Call-to-Action", Trim(CallToActionShown(a)))]
  {
    var l := RecommendationsLayout(a);
    RecommendationsRendered(a);
    TitlesRecognised();
    IndentIsBlank();
    ParseTwo(l[0], l[1], "\n" + Indent);
  }

  /** With no analysis at all, the panels show their placeholders, each in
      its own section. */
  lemma EmptyAnalysisSections()
    ensures ParseSections(AnalysisText(NoAnalysis)) == [
      Section("Sentiment", "N/A"), Section("Readability", "N/A"), Section("Issues", "None")]
    ensures ParseSections(RecommendationsText(NoAnalysis)) == [
      Section("Hashtags", "N/A"), Section("Call-to-Action", "N/A")]
  {
    assert !SpaceAt("N/A", 0) && !SpaceAt("None", 0);
    assert IssuesShown(NoAnalysis) == "None";
    assert HashtagsShown(NoAnalysis) == "N/A";
    AnalysisSections(NoAnalysis);
    RecommendationsSections(NoAnalysis);
    TrimOfTrimmed("N/A");
    TrimOfTrimmed("None");
  }
}

=== FILE: sections.dfy ===
/**
 The section parser of the front-end (`parseSections` in frontend/src/App.jsx).

 The parser runs the global regular expression

   (^|\n)([A-Z][\w\s/&+-]{1,100}?):\s*([\s\S]*?)(?=\n[A-Z][\w\s/&+-]{1,100}?:|\s*$)

 over the text and turns each match into a section whose title is the trimmed
 second group and whose content is the trimmed third group. This module states
 that search as a deterministic scanner over positions:

 - a heading at `h` is a capital letter followed by the maximal run of title
   characters, of length 1 to 100, followed by `:` (the lazy quantifier has a
   single candidate, because `:` is not a title character);
 - a match starts at 0 or at a newline, and the heading follows it;
 - `\s*` after the colon takes every space: the look-ahead `\s*$` always holds at
   the end of the text, so the engine never backtracks into it;
 - the content stops at the first position where the rest of the text is blank
   or which is a newline followed by a heading;
 - the next search resumes where the content stopped.

 The functions carry only the bounds their callers need; what they mean is
 stated by the lemmas that follow them.
 */
module Sections {
  import opened Text

  datatype Section = Section(title: string, content: string)

  predicate IsUpper(c: char) {
    'A' <= c <= 'Z'
  }

  /** `\w` in a regular expression without the `u` flag. */
  predicate IsWordChar(c: char) {
    IsUpper(c) || 'a' <= c <= 'z' || '0' <= c <= '9' || c == '_'
  }

  /** The class `[\w\s/&+-]` of characters that may follow a heading's capital. */
  predicate IsTitleChar(c: char) {
    IsWordChar(c) || IsSpace(c) || c == '/' || c == '&' || c == '+' || c == '-'
  }

  predicate AllTitleChars(s: string, i: nat, j: nat)
    requires i <= j <= |s|
  {
    forall k :: i <= k < j ==> IsTitleChar(s[k])
  }

  /** Upper bound of the quantifier `{1,100}?` in the heading pattern. */
  const MaxTitleRun: nat := 100

  /** Length of the run of title characters that starts at `i`. */
  function TitleRun(s: string, i: nat): (n: nat)
    requires i <= |s|
    ensures i + n <= |s|
    decreases |s| - i
  {
    if i < |s| && IsTitleChar(s[i]) then 1 + TitleRun(s, i + 1) else 0
  }

  /** The run is made of title characters and cannot be extended. */
  lemma {:induction false} TitleRunMaximal(s: string, i: nat)
    requires i <= |s|
    ensures AllTitleChars(s, i, i + TitleRun(s, i))
    ensures i + TitleRun(s, i) < |s| ==> !IsTitleChar(s[i + TitleRun(s, i)])
    decreases |s| - i
  {
    if i < |s| && IsTitleChar(s[i]) {
      TitleRunMaximal(s, i + 1);
    }
  }

  /** A run of `n` title characters that ends before a non-title character
      is the run `TitleRun` measures. */
  lemma {:induction false} TitleRunExact(s: string, i: nat, n: nat)
    requires i + n < |s|
    requires AllTitleChars(s, i, i + n)
    requires !IsTitleChar(s[i + n])
    ensures TitleRun(s, i) == n
    decreases n
  {
    if n > 0 {
      assert IsTitleChar(s[i]);
      TitleRunExact(s, i + 1, n - 1);
    }
  }

  /** Where the title characters after the capital at `h` stop: the place
      of the heading's colon, if it is one. */
  function ColonOf(s: string, h: nat): (c: nat)
    requires h < |s|
    ensures h < c <= |s|
  {
    h + 1 + TitleRun(s, h + 1)
  }

  /** A heading starts at `h`: a capital, 1 to 100 title characters, a colon. */
  predicate IsHeadingAt(s: string, h: nat) {
    && h < |s|
    && IsUpper(s[h])
    && 1 <= TitleRun(s, h + 1) <= MaxTitleRun
    && ColonOf(s, h) < |s|
    && s[ColonOf(s, h)] == ':'
  }

  /** What the pattern `[A-Z][\w\s/&+-]{1,100}?:` asks of the text after the
      capital at `h` when the lazy quantifier takes `k` repetitions. */
  predicate LazyTitleFits(s: string, h: nat, k: nat) {
    && h + 1 + k < |s|
    && AllTitleChars(s, h + 1, h + 1 + k)
    && s[h + 1 + k] == ':'
  }

  /** The lazy quantifier has at most one way to reach the colon. */
  lemma LazyTitleUnique(s: string, h: nat, k1: nat, k2: nat)
    requires LazyTitleFits(s, h, k1) && LazyTitleFits(s, h, k2)
    ensures k1 == k2
  {
    TitleRunExact(s, h + 1, k1);
    TitleRunExact(s, h + 1, k2);
  }

  /** The deterministic heading test agrees with the regular expression's
      lazy-quantifier semantics, in both directions. */
  lemma HeadingIsLazyMatch(s: string, h: nat)
    ensures IsHeadingAt(s, h) <==>
      h < |s| && IsUpper(s[h]) && exists k :: 1 <= k <= MaxTitleRun && LazyTitleFits(s, h, k)
  {
    if h < |s| {
      var n := TitleRun(s, h + 1);
      if IsHeadingAt(s, h) {
        TitleRunMaximal(s, h + 1);
        assert LazyTitleFits(s, h, n);
      }
      if exists k :: 1 <= k <= MaxTitleRun && LazyTitleFits(s, h, k) {
        var k :| 1 <= k <= MaxTitleRun && LazyTitleFits(s, h, k);
        TitleRunExact(s, h + 1, k);
      }
    }
  }

  /** The anchor `(^|\n)` at `p`, followed by a heading. */
  predicate MatchesAt(s: string, p: nat) {
    || (p == 0 && IsHeadingAt(s, 0))
    || (p < |s| && s[p] == '\n' && IsHeadingAt(s, p + 1))
  }

  /** Some heading can be found in the text. */
  predicate HasHeading(s: string) {
    exists p :: 0 <= p < |s| && MatchesAt(s, p)
  }


  /** The look-ahead `(?=\n<heading>|\s*$)` holds at `q`. */
  predicate StopsAt(s: string, q: nat)
    requires q <= |s|
  {
    SpaceBetween(s, q, |s|) || (q < |s| && s[q] == '\n' && IsHeadingAt(s, q + 1))
  }

  /** Where the lazy content group `([\s\S]*?)` started at `q` ends. */
  function ContentEnd(s: string, q: nat): (e: nat)
    requires q <= |s|
    ensures q <= e <= |s|
    decreases |s| - q
  {
    if StopsAt(s, q) then q else ContentEnd(s, q + 1)
  }

  /** The content ends at the first position where the look-ahead holds. */
  lemma {:induction false} ContentEndFirstStop(s: string, q: nat)
    requires q <= |s|
    ensures StopsAt(s, ContentEnd(s, q))
    ensures forall k :: q <= k < ContentEnd(s, q) ==> !StopsAt(s, k)
    decreases |s| - q
  {
    if !StopsAt(s, q) {
      ContentEndFirstStop(s, q + 1);
    }
  }

  /** Content with no newline before the newline of a heading at `n` runs up
      to that newline. */
  lemma {:induction false} ContentEndAtHeading(s: string, b: nat, n: nat)
    requires b <= n < |s|
    requires forall k :: b <= k < n ==> s[k] != '\n'
    requires s[n] == '\n' && IsHeadingAt(s, n + 1)
    ensures ContentEnd(s, b) == n
    decreases n - b
  {
    if b < n {
      assert !SpaceAt(s, n + 1);
      ContentEndAtHeading(s, b + 1, n);
    }
  }

  /** Content with no newline before blank trailing text at `n` ends no later
      than `n`, where only blank text remains. */
  lemma {:induction false} ContentEndAtBlankTail(s: string, b: nat, n: nat)
    requires b <= n <= |s|
    requires forall k :: b <= k < n ==> s[k] != '\n'
    requires SpaceBetween(s, n, |s|)
    ensures ContentEnd(s, b) <= n
    ensures SpaceBetween(s, ContentEnd(s, b), |s|)
    decreases n - b
  {
    if !SpaceBetween(s, b, |s|) {
      ContentEndAtBlankTail(s, b + 1, n);
    }
  }

  /** The positions of one match: where the anchor is, where the heading
      starts, where its colon is, and where the content starts and ends. */
  datatype Match = Match(at: nat, heading: nat, colon: nat, bodyStart: nat, bodyEnd: nat)

  /** The positions of a match lie in the text, in this order. */
  predicate InBounds(s: string, m: Match) {
    && m.at <= m.heading <= m.at + 1
    && m.heading < m.colon < m.bodyStart <= m.bodyEnd <= |s|
  }

  /** What every match of the expression satisfies. */
  predicate ValidMatch(s: string, m: Match) {
    && InBounds(s, m)
    && IsHeadingAt(s, m.heading)
    && (m.heading == m.at ==> m.at == 0)
    && (m.heading == m.at + 1 ==> s[m.at] == '\n')
    && m.colon == ColonOf(s, m.heading)
    && SpaceBetween(s, m.colon + 1, m.bodyStart)
    && (m.bodyStart < |s| ==> !IsSpace(s[m.bodyStart]))
    && StopsAt(s, m.bodyEnd)
    && (forall k :: m.bodyStart <= k < m.bodyEnd ==> !StopsAt(s, k))
  }

  /** The match the expression finds when the anchor is at `p`. */
  function MatchFrom(s: string, p: nat): (m: Match)
    requires MatchesAt(s, p)
    ensures m.at == p && InBounds(s, m)
  {
    var h := if p == 0 && IsHeadingAt(s, 0) then 0 else p + 1;
    var c := ColonOf(s, h);
    var b := SkipSpace(s, c + 1);
    Match(p, h, c, b, ContentEnd(s, b))
  }

  /** The match at an anchor has a heading right there or after the newline,
      skips the spaces after the colon, and ends its content where the
      look-ahead first holds. */
  lemma MatchFromValid(s: string, p: nat)
    requires MatchesAt(s, p)
    ensures ValidMatch(s, MatchFrom(s, p))
  {
    var m := MatchFrom(s, p);
    ContentEndFirstStop(s, m.bodyStart);
  }

  /** The match anchored at a newline: its heading follows the newline, and
      its content starts after the spaces that follow the colon. */
  lemma MatchAfterNewline(s: string, p: nat)
    requires p < |s| && s[p] == '\n' && IsHeadingAt(s, p + 1)
    ensures MatchesAt(s, p)
    ensures MatchFrom(s, p).heading == p + 1
    ensures MatchFrom(s, p).colon == ColonOf(s, p + 1)
    ensures MatchFrom(s, p).bodyStart == SkipSpace(s, ColonOf(s, p + 1) + 1)
    ensures MatchFrom(s, p).bodyEnd == ContentEnd(s, MatchFrom(s, p).bodyStart)
  {
  }

  /** No match can start inside blank trailing text. */
  lemma NoMatchInBlankTail(s: string, q: nat)
    requires q <= |s| && SpaceBetween(s, q, |s|)
    ensures forall p :: q <= p ==> !MatchesAt(s, p)
  {
    forall p | q <= p
      ensures !MatchesAt(s, p)
    {
      if p < |s| {
        assert SpaceAt(s, p);
      }
      if p + 1 < |s| {
        assert SpaceAt(s, p + 1);
      }
    }
  }

  /** The successive matches of the global expression from `from` on. */
  function Scan(s: string, from: nat): (ms: seq<Match>)
    requires from <= |s|
    ensures forall i :: 0 <= i < |ms| ==> from <= ms[i].at && InBounds(s, ms[i])
    decreases |s| - from
  {
    if from == |s| then []
    else if MatchesAt(s, from) then
      var m := MatchFrom(s, from);
      [m] + Scan(s, m.bodyEnd)
    else
      Scan(s, from + 1)
  }

  /** Every match the scan reports is the match at an anchor. */
  lemma {:induction false} ScanFindsMatches(s: string, from: nat, i: nat)
    requires from <= |s| && i < |Scan(s, from)|
    ensures MatchesAt(s, Scan(s, from)[i].at)
    ensures Scan(s, from)[i] == MatchFrom(s, Scan(s, from)[i].at)
    decreases |s| - from
  {
    assert from < |s|;
    if !MatchesAt(s, from) {
      assert Scan(s, from) == Scan(s, from + 1);
      ScanFindsMatches(s, from + 1, i);
    } else {
      var m := MatchFrom(s, from);
      var rest := Scan(s, m.bodyEnd);
      assert Scan(s, from) == [m] + rest;
      if i > 0 {
        assert Scan(s, from)[i] == rest[i - 1];
        ScanFindsMatches(s, m.bodyEnd, i - 1);
      }
    }
  }

  /** Every match found is a valid match. */
  lemma ScanValid(s: string, from: nat, i: nat)
    requires from <= |s| && i < |Scan(s, from)|
    ensures ValidMatch(s, Scan(s, from)[i])
  {
    ScanFindsMatches(s, from, i);
    MatchFromValid(s, Scan(s, from)[i].at);
  }

  /** Blank text holds no match. */
  lemma {:induction false} ScanBlankTail(s: string, q: nat)
    requires q <= |s| && SpaceBetween(s, q, |s|)
    ensures Scan(s, q) == []
    decreases |s| - q
  {
    if q < |s| {
      NoMatchInBlankTail(s, q);
      ScanBlankTail(s, q + 1);
    }
  }

  /** The scan finds nothing exactly when no anchor is followed by a heading. */
  lemma {:induction false} ScanEmptyIff(s: string, from: nat)
    requires from <= |s|
    ensures Scan(s, from) == [] <==> forall p :: from <= p < |s| ==> !MatchesAt(s, p)
    decreases |s| - from
  {
    if from < |s| && !MatchesAt(s, from) {
      ScanEmptyIff(s, from + 1);
    }
  }

  /** Text before the first match belongs to no section. */
  lemma {:induction false} ScanSkipsToFirstMatch(s: string, from: nat)
    requires from <= |s| && Scan(s, from) != []
    ensures forall p :: from <= p < Scan(s, from)[0].at ==> !MatchesAt(s, p)
    decreases |s| - from
  {
    if !MatchesAt(s, from) {
      ScanSkipsToFirstMatch(s, from + 1);
    }
  }

  /** Each match's content ends exactly where the next match's anchor is. */
  predicate Tiled(ms: seq<Match>) {
    |ms| <= 1 || (ms[0].bodyEnd == ms[1].at && Tiled(ms[1..]))
  }

  /** After a match, either only blank text remains or the next match is
      anchored exactly where its content ended. */
  lemma NextMatchAt(s: string, p: nat)
    requires MatchesAt(s, p)
    ensures var e := MatchFrom(s, p).bodyEnd;
      if SpaceBetween(s, e, |s|) then Scan(s, e) == [] else Scan(s, e) != [] && Scan(s, e)[0].at == e
  {
    var e := MatchFrom(s, p).bodyEnd;
    MatchFromValid(s, p);
    if SpaceBetween(s, e, |s|) {
      ScanBlankTail(s, e);
    }
  }

  lemma {:induction false} ScanTiles(s: string, from: nat)
    requires from <= |s|
    ensures Tiled(Scan(s, from))
    decreases |s| - from
  {
    if from < |s| {
      if MatchesAt(s, from) {
        var m := MatchFrom(s, from);
        var rest := Scan(s, m.bodyEnd);
        assert Scan(s, from) == [m] + rest;
        assert ([m] + rest)[1..] == rest;
        NextMatchAt(s, from);
        ScanTiles(s, m.bodyEnd);
      } else {
        ScanTiles(s, from + 1);
      }
    }
  }

  /** The content of the last match ends where only blank text remains. */
  lemma {:induction false} ScanEndsInBlank(s: string, from: nat)
    requires from <= |s| && Scan(s, from) != []
    ensures SpaceBetween(s, Scan(s, from)[|Scan(s, from)| - 1].bodyEnd, |s|)
    decreases |s| - from
  {
    if MatchesAt(s, from) {
      var m := MatchFrom(s, from);
      var rest := Scan(s, m.bodyEnd);
      assert Scan(s, from) == [m] + rest;
      NextMatchAt(s, from);
      if rest != [] {
        ScanEndsInBlank(s, m.bodyEnd);
      }
    } else {
      ScanEndsInBlank(s, from + 1);
    }
  }

  /** Tiled matches come in order and do not overlap. */
  lemma {:induction false} TiledInOrder(s: string, ms: seq<Match>, i: nat, j: nat)
    requires Tiled(ms) && forall k :: 0 <= k < |ms| ==> InBounds(s, ms[k])
    requires i < j < |ms|
    ensures ms[i].bodyEnd <= ms[j].at
    ensures ms[i].heading < ms[j].heading
    decreases |ms|
  {
    if i > 0 {
      TiledInOrder(s, ms[1..], i - 1, j - 1);
    } else if j > 1 {
      TiledInOrder(s, ms[1..], 0, j - 1);
    }
  }

  /** Matches come out in source order and do not overlap. */
  lemma MatchesInSourceOrder(s: string, from: nat, i: nat, j: nat)
    requires from <= |s|
    requires i < j < |Scan(s, from)|
    ensures Scan(s, from)[i].bodyEnd <= Scan(s, from)[j].at
    ensures Scan(s, from)[i].heading < Scan(s, from)[j].heading
  {
    ScanTiles(s, from);
    TiledInOrder(s, Scan(s, from), i, j);
  }

  /** A well-formed section title: a capital, then title characters, trimmed,
      at most 101 characters, never holding a colon. */
  predicate ValidTitle(t: string) {
    && 1 <= |t| <= MaxTitleRun + 1
    && IsUpper(t[0])
    && IsTrimmed(t)
    && AllTitleChars(t, 0, |t|)
    && ':' !in t
  }

  /** The section one match yields; the title falls back to "Untitled" when
      the trimmed title is empty. */
  function SectionOf(s: string, m: Match): (sec: Section)
    requires InBounds(s, m)
    ensures IsTrimmed(sec.content)
    ensures |sec.content| <= m.bodyEnd - m.bodyStart
  {
    var title := Trim(s[m.heading..m.colon]);
    Section(if title == [] then "Untitled" else title, Trim(s[m.bodyStart..m.bodyEnd]))
  }

  /** The trimmed text of a heading, up to its colon, is a valid title; in
      particular it is never empty. */
  lemma HeadingTitle(s: string, h: nat)
    requires IsHeadingAt(s, h)
    ensures ValidTitle(Trim(s[h..ColonOf(s, h)]))
  {
    var raw := s[h..ColonOf(s, h)];
    TitleRunMaximal(s, h + 1);
    assert AllTitleChars(raw, 0, |raw|) by {
      forall k | 0 <= k < |raw|
        ensures IsTitleChar(raw[k])
      {
        assert raw[k] == s[h + k];
      }
    }
    assert !SpaceAt(raw, 0);
    var hi := SkipSpaceBack(raw, |raw|);
    assert 0 < hi;
    var title := Trim(raw);
    assert title == raw[0..hi];
    assert title[0] == raw[0];
    assert AllTitleChars(title, 0, |title|) by {
      forall k | 0 <= k < |title|
        ensures IsTitleChar(title[k])
      {
        assert title[k] == raw[k];
      }
    }
  }

  /** The section of the match at an anchor is titled with the trimmed
      heading, which is a valid title, so the "Untitled" default is never
      taken. */
  lemma MatchedTitle(s: string, p: nat)
    requires MatchesAt(s, p)
    ensures var m := MatchFrom(s, p);
      SectionOf(s, m).title == Trim(s[m.heading..m.colon]) && ValidTitle(SectionOf(s, m).title)
  {
    var m := MatchFrom(s, p);
    assert IsHeadingAt(s, m.heading) && m.colon == ColonOf(s, m.heading);
    HeadingTitle(s, m.heading);
  }

  /** The sections of a sequence of matches, in order. */
  function SectionsOf(s: string, ms: seq<Match>): (r: seq<Section>)
    requires forall i :: 0 <= i < |ms| ==> InBounds(s, ms[i])
    ensures |r| == |ms|
    ensures forall i :: 0 <= i < |ms| ==> r[i] == SectionOf(s, ms[i])
  {
    if ms == [] then [] else [SectionOf(s, ms[0])] + SectionsOf(s, ms[1..])
  }

  /** `parseSections`: nothing for blank text, the sections of the matches
      when there are any, and otherwise one untrimmed "Notes" section. */
  function ParseSections(text: string): (r: seq<Section>)
    ensures r == [] <==> AllSpace(text)
  {
    if Trim(text) == [] then
      []
    else
      var ms := Scan(text, 0);
      if |ms| == 0 then [Section("Notes", text)] else SectionsOf(text, ms)
  }

  /** A heading is never blank text. */
  lemma HeadingNotBlank(text: string)
    requires HasHeading(text)
    ensures !AllSpace(text)
  {
    var p :| 0 <= p < |text| && MatchesAt(text, p);
    var h := if p == 0 && IsHeadingAt(text, 0) then 0 else p + 1;
    assert IsUpper(text[h]);
    assert !SpaceAt(text, h);
  }

  /** A text with a heading yields one section per match, in order, each
      with a valid title and trimmed content. */
  lemma ParsedSections(text: string)
    requires HasHeading(text)
    ensures ParseSections(text) == SectionsOf(text, Scan(text, 0))
    ensures forall i :: 0 <= i < |ParseSections(text)| ==>
      ValidTitle(ParseSections(text)[i].title) && IsTrimmed(ParseSections(text)[i].content)
  {
    ScanEmptyIff(text, 0);
    HeadingNotBlank(text);
    var ms := Scan(text, 0);
    forall i | 0 <= i < |ms|
      ensures ValidTitle(SectionOf(text, ms[i]).title)
    {
      ScanFindsMatches(text, 0, i);
      MatchedTitle(text, ms[i].at);
    }
  }

  /** The "Notes" fallback is taken exactly when the text is not blank and
      holds no heading; its content is the whole, untrimmed text. */
  lemma NotesFallbackIff(text: string)
    ensures ParseSections(text) == [Section("Notes", text)] <==> !AllSpace(text) && !HasHeading(text)
  {
    ScanEmptyIff(text, 0);
    if HasHeading(text) {
      ParsedSections(text);
      var ms := Scan(text, 0);
      var r := ParseSections(text);
      assert r[0] == SectionOf(text, ms[0]);
      assert |r[0].content| < |text|;
    }
  }

  /** A non-blank single line that does not start with a capital is one
      "Notes" section. */
  lemma SingleLineIsNotes(s: string)
    requires '\n' !in s
    requires |s| > 0 ==> !IsUpper(s[0])
    requires !AllSpace(s)
    ensures ParseSections(s) == [Section("Notes", s)]
  {
    forall p | 0 <= p < |s|
      ensures !MatchesAt(s, p)
    {
      assert s[p] != '\n';
    }
    NotesFallbackIff(s);
  }

  /** The text a section is rendered as: a newline, the title, ": ", the content. */
  function RenderSection(x: Section): string {
    "\n" + x.title + ": " + x.content
  }

  function Render(secs: seq<Section>): string {
    if secs == [] then [] else RenderSection(secs[0]) + Render(secs[1..])
  }

  /** A title the heading pattern recognises and `trim` leaves unchanged. */
  predicate IsHeadingTitle(t: string) {
    && 2 <= |t| <= MaxTitleRun + 1
    && IsUpper(t[0])
    && AllTitleChars(t, 1, |t|)
    && !IsSpace(t[|t| - 1])
  }

  /** A section that survives rendering and parsing: a heading title and a
      content on one line that is not blank. */
  predicate Renderable(x: Section) {
    IsHeadingTitle(x.title) && '\n' !in x.content && !AllSpace(x.content)
  }

  /** The rendering of `x` sits in `s` at `o`, spelled out position by
      position: the newline, the title, the colon, then a space and the
      content. */
  predicate LaidOut(s: string, o: nat, x: Section) {
    && o + |RenderSection(x)| <= |s|
    && s[o] == '\n'
    && s[o + 1..o + 1 + |x.title|] == x.title
    && s[o + 1 + |x.title|] == ':'
    && s[o + 2 + |x.title|..o + |RenderSection(x)|] == " " + x.content
  }

  /** A rendered section found at `o` is laid out there, and what follows it
      starts right after it. */
  lemma RenderedLaidOut(s: string, o: nat, x: Section, rest: string)
    requires o <= |s| && s[o..] == RenderSection(x) + rest
    ensures LaidOut(s, o, x)
    ensures s[o + |RenderSection(x)|..] == rest
  {
    var t := x.title;
    var w := s[o..];
    assert w == "\n" + t + ": " + x.content + rest;
    assert s[o..|s|] == w;
    assert s[o] == w[0];
    SliceOfSlice(s, o, |s|, 1, 1 + |t|);
    assert s[o + 1..o + 1 + |t|] == w[1..1 + |t|];
    assert s[o + 1 + |t|] == w[1 + |t|];
    SliceOfSlice(s, o, |s|, 2 + |t|, 3 + |t| + |x.content|);
    assert s[o + 2 + |t|..o + |RenderSection(x)|] == w[2 + |t|..3 + |t| + |x.content|];
    assert s[o + |RenderSection(x)|..] == w[|RenderSection(x)|..];
  }

  /** The heading of a laid-out section: the pattern's heading starts after
      the newline and its colon comes right after the title. */
  lemma RenderedHeading(s: string, o: nat, x: Section)
    requires Renderable(x) && LaidOut(s, o, x)
    ensures IsHeadingAt(s, o + 1)
    ensures ColonOf(s, o + 1) == o + 1 + |x.title|
  {
    var t := x.title;
    var c := o + 1 + |t|;
    assert s[o + 1] == s[o + 1..c][0] == t[0];
    assert AllTitleChars(s, o + 2, c) by {
      forall k | o + 2 <= k < c
        ensures IsTitleChar(s[k])
      {
        assert s[k] == s[o + 1..c][k - o - 1] == t[k - o - 1];
      }
    }
    assert s[c + 1] == s[c + 1..o + |RenderSection(x)|][0];
    TitleRunExact(s, o + 2, |t| - 1);
  }

  /** The match anchored at the newline of a laid-out section: its heading
      follows the newline, its colon follows the title, and its content
      starts after the spaces that follow the colon. */
  lemma RenderedMatch(s: string, o: nat, x: Section)
    requires Renderable(x) && LaidOut(s, o, x)
    ensures MatchesAt(s, o)
    ensures MatchFrom(s, o) == Match(o, o + 1, o + 1 + |x.title|,
      SkipSpace(s, o + 2 + |x.title|), ContentEnd(s, SkipSpace(s, o + 2 + |x.title|)))
  {
    RenderedHeading(s, o, x);
    MatchAfterNewline(s, o);
  }

  /** A laid-out section is a match anchored at its newline whose title is
      the section's title. */
  lemma RenderedAnchor(s: string, o: nat, x: Section)
    requires Renderable(x) && LaidOut(s, o, x)
    ensures MatchesAt(s, o)
    ensures SectionOf(s, MatchFrom(s, o)).title == x.title
  {
    RenderedMatch(s, o, x);
    var m := MatchFrom(s, o);
    assert s[m.heading..m.colon] == x.title;
    TrimOfTrimmed(x.title);
    assert Trim(s[m.heading..m.colon]) == x.title;
  }

  /** The one-line, non-blank value ` v` that starts at `a`: the content,
      which starts after the spaces from `a` on, starts inside it, and it
      holds no newline. */
  lemma ValueStart(s: string, a: nat, n: nat, v: string, b: nat)
    requires a <= n <= |s| && s[a..n] == " " + v
    requires '\n' !in v && !AllSpace(v)
    requires a <= b <= |s| && SpaceBetween(s, a, b)
    ensures b < n
    ensures forall k :: a <= k < n ==> s[k] != '\n'
  {
    var j :| 0 <= j < |v| && !SpaceAt(v, j);
    assert s[a + 1 + j] == (" " + v)[j + 1];
    assert !SpaceAt(s, a + 1 + j);
    forall k | a <= k < n
      ensures s[k] != '\n'
    {
      assert s[k] == (" " + v)[k - a];
    }
  }

  /** Dropping the spaces before the content start `b`, the trimmed text up
      to `n` is the trimmed value. */
  lemma ValueTrim(s: string, a: nat, n: nat, v: string, b: nat)
    requires a <= b <= n <= |s| && s[a..n] == " " + v
    requires SpaceBetween(s, a, b)
    ensures Trim(s[b..n]) == Trim(v)
  {
    TrimSlice(s, a, b, n, n);
    TrimAfterBlank(" ", v);
  }

  /** Content that starts at `b`, after the spaces from `a` on, inside a
      one-line value ` v` from `a` to a newline at `n` that starts a
      heading: it ends at that newline and trims to the trimmed value. */
  lemma InnerContent(s: string, a: nat, b: nat, n: nat, v: string)
    requires a <= b <= n < |s|
    requires SpaceBetween(s, a, b)
    requires forall k :: b <= k < n ==> s[k] != '\n'
    requires s[a..n] == " " + v
    requires s[n] == '\n' && IsHeadingAt(s, n + 1)
    ensures ContentEnd(s, b) == n
    ensures Trim(s[b..n]) == Trim(v)
  {
    ContentEndAtHeading(s, b, n);
    ValueTrim(s, a, n, v, b);
  }

  /** Content that starts at `b`, after the spaces from `a` on, inside a
      one-line value ` v` from `a` to `n` after which only blank text
      remains: it ends in the blank text and trims to the trimmed value. */
  lemma LastContent(s: string, a: nat, b: nat, n: nat, v: string)
    requires a <= b < n <= |s|
    requires SpaceBetween(s, a, b)
    requires forall k :: b <= k < n ==> s[k] != '\n'
    requires s[a..n] == " " + v
    requires SpaceBetween(s, n, |s|)
    ensures SpaceBetween(s, ContentEnd(s, b), |s|)
    ensures Trim(s[b..ContentEnd(s, b)]) == Trim(v)
  {
    ContentEndAtBlankTail(s, b, n);
    LastValueTrim(s, a, n, v, b, ContentEnd(s, b));
  }

  /** The content of the last section, between the spaces from `a` on and a
      stop `e` in the blank text after the value, trims to the trimmed
      value. */
  lemma LastValueTrim(s: string, a: nat, n: nat, v: string, b: nat, e: nat)
    requires a <= b <= n <= |s| && b <= e <= |s|
    requires s[a..n] == " " + v
    requires SpaceBetween(s, a, b) && SpaceBetween(s, e, |s|) && SpaceBetween(s, n, |s|)
    ensures Trim(s[b..e]) == Trim(v)
  {
    if e <= n {
      TrimSlice(s, b, b, e, n);
    } else {
      TrimSlice(s, b, b, n, e);
    }
    ValueTrim(s, a, n, v, b);
  }

  /** A one-line, non-blank value ` v` from `a` to a newline at `n` that
      starts a heading: the content, which starts after the spaces from `a`
      on, ends at that newline and trims to the trimmed value. */
  lemma InnerValue(s: string, a: nat, n: nat, v: string)
    requires a <= n < |s| && s[a..n] == " " + v
    requires '\n' !in v && !AllSpace(v)
    requires s[n] == '\n' && IsHeadingAt(s, n + 1)
    ensures ContentEnd(s, SkipSpace(s, a)) == n
    ensures Trim(s[SkipSpace(s, a)..n]) == Trim(v)
  {
    var b := SkipSpace(s, a);
    ValueStart(s, a, n, v, b);
    InnerContent(s, a, b, n, v);
  }

  /** A one-line, non-blank value ` v` from `a` to `n`, after which only
      blank text remains: the content, which starts after the spaces from
      `a` on, ends in the blank text and trims to the trimmed value. */
  lemma LastValue(s: string, a: nat, n: nat, v: string)
    requires a <= n <= |s| && s[a..n] == " " + v
    requires '\n' !in v && !AllSpace(v)
    requires SpaceBetween(s, n, |s|)
    ensures SpaceBetween(s, ContentEnd(s, SkipSpace(s, a)), |s|)
    ensures Trim(s[SkipSpace(s, a)..ContentEnd(s, SkipSpace(s, a))]) == Trim(v)
  {
    var b := SkipSpace(s, a);
    ValueStart(s, a, n, v, b);
    LastContent(s, a, b, n, v);
  }

  /** The match anchored at a newline at `p` whose colon is followed, from
      `a`, by a one-line, non-blank value ` v` up to the newline of the next
      heading at `n`: its content ends at `n` and trims to the trimmed value. */
  lemma MatchBeforeHeading(s: string, p: nat, a: nat, n: nat, v: string)
    requires p < |s| && s[p] == '\n' && IsHeadingAt(s, p + 1)
    requires a == ColonOf(s, p + 1) + 1
    requires a <= n < |s| && s[a..n] == " " + v
    requires '\n' !in v && !AllSpace(v)
    requires s[n] == '\n' && IsHeadingAt(s, n + 1)
    ensures MatchesAt(s, p)
    ensures MatchFrom(s, p).bodyEnd == n
    ensures Trim(s[MatchFrom(s, p).bodyStart..MatchFrom(s, p).bodyEnd]) == Trim(v)
  {
    MatchAfterNewline(s, p);
    InnerValue(s, a, n, v);
  }

  /** The match anchored at a newline at `p` whose colon is followed, from
      `a`, by a one-line, non-blank value ` v` up to `n`, after which only
      blank text remains: its content ends in the blank text and trims to
      the trimmed value. */
  lemma MatchBeforeBlank(s: string, p: nat, a: nat, n: nat, v: string)
    requires p < |s| && s[p] == '\n' && IsHeadingAt(s, p + 1)
    requires a == ColonOf(s, p + 1) + 1
    requires a <= n <= |s| && s[a..n] == " " + v
    requires '\n' !in v && !AllSpace(v)
    requires SpaceBetween(s, n, |s|)
    ensures MatchesAt(s, p)
    ensures SpaceBetween(s, MatchFrom(s, p).bodyEnd, |s|)
    ensures Trim(s[MatchFrom(s, p).bodyStart..MatchFrom(s, p).bodyEnd]) == Trim(v)
  {
    MatchAfterNewline(s, p);
    LastValue(s, a, n, v);
  }

  /** The content of a laid-out section followed by another one stops at the
      next section's newline and trims to the trimmed value. */
  lemma RenderedInnerContent(s: string, o: nat, x: Section, y: Section)
    requires Renderable(x) && Renderable(y)
    requires LaidOut(s, o, x) && LaidOut(s, o + |RenderSection(x)|, y)
    ensures MatchesAt(s, o)
    ensures MatchFrom(s, o).bodyEnd == o + |RenderSection(x)|
    ensures Trim(s[MatchFrom(s, o).bodyStart..MatchFrom(s, o).bodyEnd]) == Trim(x.content)
  {
    RenderedHeading(s, o, x);
    RenderedHeading(s, o + |RenderSection(x)|, y);
    MatchBeforeHeading(s, o, o + 2 + |x.title|, o + |RenderSection(x)|, x.content);
  }

  /** The content of the last laid-out section stops where only blank text
      remains and trims to the trimmed value. */
  lemma RenderedLastContent(s: string, o: nat, x: Section)
    requires Renderable(x) && LaidOut(s, o, x)
    requires SpaceBetween(s, o + |RenderSection(x)|, |s|)
    ensures MatchesAt(s, o)
    ensures SpaceBetween(s, MatchFrom(s, o).bodyEnd, |s|)
    ensures Trim(s[MatchFrom(s, o).bodyStart..MatchFrom(s, o).bodyEnd]) == Trim(x.content)
  {
    RenderedHeading(s, o, x);
    MatchBeforeBlank(s, o, o + 2 + |x.title|, o + |RenderSection(x)|, x.content);
  }

  /** A laid-out section followed by another one is parsed back with its
      title and its trimmed content, and the next match starts right after it. */
  lemma RenderedInner(s: string, o: nat, x: Section, y: Section)
    requires Renderable(x) && Renderable(y)
    requires LaidOut(s, o, x) && LaidOut(s, o + |RenderSection(x)|, y)
    ensures MatchesAt(s, o)
    ensures MatchFrom(s, o).bodyEnd == o + |RenderSection(x)|
    ensures SectionOf(s, MatchFrom(s, o)) == Section(x.title, Trim(x.content))
  {
    RenderedAnchor(s, o, x);
    RenderedInnerContent(s, o, x, y);
  }

  /** The last laid-out section is parsed back with its title and its
      trimmed content, and only blank text follows its match. */
  lemma RenderedLast(s: string, o: nat, x: Section)
    requires Renderable(x) && LaidOut(s, o, x)
    requires SpaceBetween(s, o + |RenderSection(x)|, |s|)
    ensures MatchesAt(s, o)
    ensures SpaceBetween(s, MatchFrom(s, o).bodyEnd, |s|)
    ensures SectionOf(s, MatchFrom(s, o)) == Section(x.title, Trim(x.content))
  {
    RenderedAnchor(s, o, x);
    RenderedLastContent(s, o, x);
  }

  /** Sections laid out one after another from `o`, then only blank text. */
  predicate LaidOutAll(s: string, o: nat, secs: seq<Section>)
    decreases |secs|
  {
    if secs == [] then
      o <= |s| && SpaceBetween(s, o, |s|)
    else
      LaidOut(s, o, secs[0]) && LaidOutAll(s, o + |RenderSection(secs[0])|, secs[1..])
  }

  /** Rendered sections followed by blank text are laid out one after
      another. */
  lemma {:induction false} RenderedLaidOutAll(s: string, o: nat, secs: seq<Section>, tail: string)
    requires o <= |s| && s[o..] == Render(secs) + tail && AllSpace(tail)
    ensures LaidOutAll(s, o, secs)
    decreases |secs|
  {
    if secs == [] {
      assert s[o..] == tail;
      BlankSuffix(s, o);
    } else {
      var next := Render(secs[1..]) + tail;
      assert Render(secs) + tail == RenderSection(secs[0]) + next;
      RenderedLaidOut(s, o, secs[0], next);
      RenderedLaidOutAll(s, o + |RenderSection(secs[0])|, secs[1..], tail);
    }
  }

  /** The scan from an anchor is the match there followed by the scan from
      where its content ends. */
  lemma ScanAtMatch(s: string, p: nat)
    requires MatchesAt(s, p)
    ensures Scan(s, p) == [MatchFrom(s, p)] + Scan(s, MatchFrom(s, p).bodyEnd)
  {
  }

  /** What parsing gives back for rendered sections: their titles, with
      trimmed contents. */
  function Reparsed(secs: seq<Section>): (r: seq<Section>)
    ensures |r| == |secs|
    ensures forall i :: 0 <= i < |secs| ==> r[i] == Section(secs[i].title, Trim(secs[i].content))
  {
    if secs == [] then [] else [Section(secs[0].title, Trim(secs[0].content))] + Reparsed(secs[1..])
  }

  /** The first of several laid-out sections is parsed back from the match at
      `o`, and the others are laid out from where that match ends. */
  lemma RenderedStep(s: string, o: nat, secs: seq<Section>)
    requires secs != [] && LaidOutAll(s, o, secs)
    requires Renderable(secs[0]) && (|secs| > 1 ==> Renderable(secs[1]))
    ensures MatchesAt(s, o)
    ensures SectionOf(s, MatchFrom(s, o)) == Section(secs[0].title, Trim(secs[0].content))
    ensures LaidOutAll(s, MatchFrom(s, o).bodyEnd, secs[1..])
  {
    var n := o + |RenderSection(secs[0])|;
    assert LaidOut(s, o, secs[0]) && LaidOutAll(s, n, secs[1..]);
    if |secs| == 1 {
      assert secs[1..] == [];
      RenderedLast(s, o, secs[0]);
      assert LaidOutAll(s, MatchFrom(s, o).bodyEnd, []);
    } else {
      assert secs[1..][0] == secs[1];
      RenderedInner(s, o, secs[0], secs[1]);
      assert MatchFrom(s, o).bodyEnd == n;
    }
  }

  /** Scanning laid-out sections finds one match per section, which yields
      the section's title and its trimmed content. */
  lemma {:induction false} ScanLaidOut(s: string, o: nat, secs: seq<Section>)
    requires LaidOutAll(s, o, secs)
    requires forall i :: 0 <= i < |secs| ==> Renderable(secs[i])
    ensures SectionsOf(s, Scan(s, o)) == Reparsed(secs)
    decreases |secs|
  {
    if secs == [] {
      ScanBlankTail(s, o);
    } else {
      RenderedStep(s, o, secs);
      var m := MatchFrom(s, o);
      ScanLaidOut(s, m.bodyEnd, secs[1..]);
      ScanAtMatch(s, o);
      assert ([m] + Scan(s, m.bodyEnd))[1..] == Scan(s, m.bodyEnd);
    }
  }

  /** Parsing rendered sections, followed by any blank text, gives back
      their titles and trimmed contents. */
  lemma ParseRendered(secs: seq<Section>, tail: string)
    requires AllSpace(tail)
    requires forall i :: 0 <= i < |secs| ==> Renderable(secs[i])
    ensures |ParseSections(Render(secs) + tail)| == |secs|
    ensures forall i :: 0 <= i < |secs| ==>
      ParseSections(Render(secs) + tail)[i] == Section(secs[i].title, Trim(secs[i].content))
  {
    var s := Render(secs) + tail;
    if secs == [] {
      assert s == tail;
    } else {
      assert s[0..] == s;
      RenderedLaidOutAll(s, 0, secs, tail);
      ScanLaidOut(s, 0, secs);
      RenderedHeading(s, 0, secs[0]);
      assert !SpaceAt(s, 1);
      assert ParseSections(s) == SectionsOf(s, Scan(s, 0));
    }
  }

  /** Rendering then parsing is the identity on sections with trimmed content. */
  lemma ParseRenderRoundTrip(secs: seq<Section>, tail: string)
    requires AllSpace(tail)
    requires forall i :: 0 <= i < |secs| ==> Renderable(secs[i]) && IsTrimmed(secs[i].content)
    ensures ParseSections(Render(secs) + tail) == secs
  {
    ParseRendered(secs, tail);
    var r := ParseSections(Render(secs) + tail);
    forall i | 0 <= i < |secs|
      ensures r[i] == secs[i]
    {
      TrimOfTrimmed(secs[i].content);
    }
  }
}

=== FILE: text.dfy ===
/**
 The JavaScript string primitives the front-end relies on: the `\s` character
 class and `String.prototype.trim`, `toLowerCase` (on ASCII letters),
 `startsWith`, `endsWith`, `includes`, `replace` of a one-character pattern,
 `split` on one character, `Array.prototype.join`, and the decimal rendering
 of a whole number inside a template literal.
 */
module Text {

  /** The characters matched by `\s` in a JavaScript regular expression,
      which are also exactly the ones `trim` removes. Every wide space is at
      least U+00A0, so the lower bound only rules out the other characters
      early and does not change the class. */
  predicate IsSpace(c: char) {
    c == ' ' || ('\t' <= c <= '\r') || ('\U{00A0}' <= c && IsWideSpace(c))
  }

  /** The `\s` characters outside ASCII. */
  predicate IsWideSpace(c: char) {
    || c == '\U{00A0}' || c == '\U{1680}' || ('\U{2000}' <= c <= '\U{200A}')
    || c == '\U{2028}' || c == '\U{2029}' || c == '\U{202F}' || c == '\U{205F}'
    || c == '\U{3000}' || c == '\U{FEFF}'
  }

  /** The character at `k` is a space. */
  predicate SpaceAt(s: string, k: nat)
    requires k < |s|
  {
    IsSpace(s[k])
  }

  /** Every character of `s` from `a` up to `b` is a space. Positions are
      looked up one at a time through `SpaceAt`. */
  predicate SpaceBetween(s: string, a: nat, b: nat)
    requires a <= b <= |s|
  {
    forall k :: a <= k < b ==> SpaceAt(s, k)
  }

  /** `s` is empty or whitespace only. */
  predicate AllSpace(s: string) {
    SpaceBetween(s, 0, |s|)
  }

  /** A blank stretch of the slice `s[i..j]` is the same stretch of `s`,
      shifted by `i`. */
  lemma SliceSpace(s: string, i: nat, j: nat, a: nat, b: nat)
    requires i <= j <= |s| && a <= b <= j - i
    ensures SpaceBetween(s[i..j], a, b) <==> SpaceBetween(s, i + a, i + b)
  {
    if SpaceBetween(s[i..j], a, b) {
      forall k | i + a <= k < i + b
        ensures SpaceAt(s, k)
      {
        assert SpaceAt(s[i..j], k - i);
      }
    }
    if SpaceBetween(s, i + a, i + b) {
      forall k | a <= k < b
        ensures SpaceAt(s[i..j], k)
      {
        assert SpaceAt(s, i + k);
      }
    }
  }

  lemma SpaceBetweenSlice(s: string, a: nat, b: nat)
    requires a <= b <= |s|
    ensures SpaceBetween(s, a, b) <==> AllSpace(s[a..b])
  {
    SliceSpace(s, a, b, 0, b - a);
  }

  lemma BlankSuffix(s: string, a: nat)
    requires a <= |s|
    ensures SpaceBetween(s, a, |s|) <==> AllSpace(s[a..])
  {
    assert s[a..|s|] == s[a..];
    SpaceBetweenSlice(s, a, |s|);
  }

  /** No whitespace at either end. */
  predicate IsTrimmed(s: string) {
    s == [] || (!SpaceAt(s, 0) && !SpaceAt(s, |s| - 1))
  }

  /** Index of the first non-space character at or after `i`, or `|s|`. */
  function SkipSpace(s: string, i: nat): (k: nat)
    requires i <= |s|
    ensures i <= k <= |s|
    ensures SpaceBetween(s, i, k)
    ensures k < |s| ==> !SpaceAt(s, k)
    decreases |s| - i
  {
    if i == |s| || !IsSpace(s[i]) then i else SkipSpace(s, i + 1)
  }

  /** One past the last non-space character before `j`, or 0. */
  function SkipSpaceBack(s: string, j: nat): (k: nat)
    requires j <= |s|
    ensures k <= j
    ensures SpaceBetween(s, k, j)
    ensures 0 < k ==> !SpaceAt(s, k - 1)
    decreases j
  {
    if j == 0 || !IsSpace(s[j - 1]) then j else SkipSpaceBack(s, j - 1)
  }

  /** `String.prototype.trim`: the stretch from the first to the last
      non-space character. */
  function Trim(s: string): (r: string)
    ensures IsTrimmed(r)
    ensures |r| <= |s|
    ensures r == [] <==> AllSpace(s)
  {
    var lo := SkipSpace(s, 0);
    var hi := SkipSpaceBack(s, |s|);
    if lo == |s| then
      []
    else
      assert lo < hi by {
        assert !SpaceAt(s, lo);
      }
      s[lo..hi]
  }

  /** `trim` keeps exactly the stretch between two blank margins that starts
      and ends with a non-space: whatever lies outside them is whitespace and
      whatever lies inside is kept verbatim. */
  lemma TrimIs(s: string, lo: nat, hi: nat)
    requires lo <= hi <= |s|
    requires SpaceBetween(s, 0, lo) && SpaceBetween(s, hi, |s|)
    requires lo < hi ==> !SpaceAt(s, lo) && !SpaceAt(s, hi - 1)
    ensures Trim(s) == s[lo..hi]
  {
    var k := SkipSpace(s, 0);
    var e := SkipSpaceBack(s, |s|);
    if lo < hi {
      assert k == lo;
      assert e == hi;
    } else {
      assert SpaceBetween(s, 0, |s|);
      assert k == |s|;
    }
  }

  lemma SliceOfSlice(s: string, i: nat, j: nat, a: nat, b: nat)
    requires i <= j <= |s| && a <= b <= j - i
    ensures s[i..j][a..b] == s[i + a..i + b]
  {
    forall k | 0 <= k < b - a
      ensures s[i..j][a..b][k] == s[i + a..i + b][k]
    {
      assert s[i..j][a..b][k] == s[i + a + k];
    }
  }

  /** `trim` of a stretch of `s` whose first and last non-spaces sit at `p`
      and `q - 1`. */
  lemma TrimWithin(s: string, a: nat, d: nat, p: nat, q: nat)
    requires a <= p < q <= d <= |s|
    requires SpaceBetween(s, a, p) && SpaceBetween(s, q, d)
    requires !SpaceAt(s, p) && !SpaceAt(s, q - 1)
    ensures Trim(s[a..d]) == s[p..q]
  {
    var x := s[a..d];
    SliceSpace(s, a, d, 0, p - a);
    SliceSpace(s, a, d, q - a, d - a);
    assert x[p - a] == s[p] && x[q - a - 1] == s[q - 1];
    TrimIs(x, p - a, q - a);
    SliceOfSlice(s, a, d, p - a, q - a);
  }

  /** Trimming a stretch of `s` gives the same result as trimming it together
      with the blank stretches on either side. */
  lemma TrimSlice(s: string, a: nat, b: nat, c: nat, d: nat)
    requires a <= b <= c <= d <= |s|
    requires SpaceBetween(s, a, b) && SpaceBetween(s, c, d)
    ensures Trim(s[b..c]) == Trim(s[a..d])
  {
    var p := SkipSpace(s, b);
    if p >= c {
      assert SpaceBetween(s, b, c);
      assert SpaceBetween(s, a, d);
      SliceSpace(s, b, c, 0, c - b);
      SliceSpace(s, a, d, 0, d - a);
    } else {
      var q := SkipSpaceBack(s, c);
      assert p < q by {
        assert !SpaceAt(s, p);
      }
      TrimWithin(s, a, d, p, q);
      TrimWithin(s, b, c, p, q);
    }
  }

  /** Whitespace margins never reach the result of `trim`. */
  lemma TrimMargins(x: string, y: string, z: string)
    requires AllSpace(x) && AllSpace(z)
    ensures Trim(x + y + z) == Trim(y)
  {
    var s := x + y + z;
    var b := |x|;
    var c := |x| + |y|;
    assert s[0..b] == x && s[b..c] == y && s[c..|s|] == z && s[0..|s|] == s;
    SpaceBetweenSlice(s, 0, b);
    SpaceBetweenSlice(s, c, |s|);
    TrimSlice(s, 0, b, c, |s|);
  }

  lemma TrimAfterBlank(x: string, y: string)
    requires AllSpace(x)
    ensures Trim(x + y) == Trim(y)
  {
    assert x + y + [] == x + y;
    TrimMargins(x, y, []);
  }

  /** Trimming a trimmed string changes nothing, so `trim` is idempotent. */
  lemma TrimOfTrimmed(s: string)
    requires IsTrimmed(s)
    ensures Trim(s) == s
  {
    TrimIs(s, 0, |s|);
    assert s[0..|s|] == s;
  }

  lemma TrimIdempotent(s: string)
    ensures Trim(Trim(s)) == Trim(s)
  {
    TrimOfTrimmed(Trim(s));
  }

  /** `toLowerCase` on one character, for the ASCII letters. */
  function LowerChar(c: char): (d: char)
    ensures 'A' <= c <= 'Z' ==> 'a' <= d <= 'z' && d as int - c as int == 32
    ensures !('A' <= c <= 'Z') ==> d == c
  {
    if 'A' <= c <= 'Z' then (c as int + 32) as char else c
  }

  /** `String.prototype.toLowerCase`, with ASCII case mapping. */
  function ToLower(s: string): (r: string)
    ensures |r| == |s|
    ensures forall i :: 0 <= i < |s| ==> r[i] == LowerChar(s[i])
  {
    if s == [] then [] else [LowerChar(s[0])] + ToLower(s[1..])
  }

  lemma ToLowerIdempotent(s: string)
    ensures ToLower(ToLower(s)) == ToLower(s)
  {
  }

  predicate StartsWith(s: string, p: string) {
    |p| <= |s| && s[..|p|] == p
  }

  predicate EndsWith(s: string, t: string) {
    |t| <= |s| && s[|s| - |t|..] == t
  }

  /** `t` occurs in `s` starting at index `i`. */
  predicate OccursAt(s: string, t: string, i: nat) {
    i + |t| <= |s| && s[i..i + |t|] == t
  }

  function IncludesFrom(s: string, t: string, i: nat): (b: bool)
    requires i <= |s|
    ensures b <==> exists k: nat :: i <= k && OccursAt(s, t, k)
    decreases |s| - i
  {
    if OccursAt(s, t, i) then true
    else if i == |s| then false
    else IncludesFrom(s, t, i + 1)
  }

  /** `String.prototype.includes`: some occurrence of `t` in `s`. */
  function Includes(s: string, t: string): (b: bool)
    ensures b <==> exists k: nat :: OccursAt(s, t, k)
  {
    IncludesFrom(s, t, 0)
  }

  function IndexOf(s: string, c: char): (k: nat)
    requires c in s
    ensures k < |s| && s[k] == c && c !in s[..k]
  {
    if s[0] == c then 0
    else
      var k := 1 + IndexOf(s[1..], c);
      assert s[..k] == [s[0]] + s[1..][..k - 1];
      k
  }

  /** `s.replace(c, "")` for a one-character pattern: only the first
      occurrence is removed. */
  function RemoveFirst(s: string, c: char): (r: string)
    ensures c !in s ==> r == s
    ensures c in s ==> r == s[..IndexOf(s, c)] + s[IndexOf(s, c) + 1..]
  {
    if s == [] then []
    else if s[0] == c then s[1..]
    else if c in s then
      var k := IndexOf(s[1..], c);
      assert IndexOf(s, c) == k + 1;
      assert s[..k + 1] == [s[0]] + s[1..][..k];
      assert s[k + 2..] == s[1..][k + 1..];
      [s[0]] + RemoveFirst(s[1..], c)
    else
      [s[0]] + RemoveFirst(s[1..], c)
  }

  /** `String.prototype.split` on a one-character separator. */
  function SplitOn(s: string, sep: char): (parts: seq<string>)
    ensures |parts| >= 1
    ensures forall i :: 0 <= i < |parts| ==> sep !in parts[i]
  {
    if s == [] then [[]]
    else
      var rest := SplitOn(s[1..], sep);
      if s[0] == sep then [[]] + rest
      else [[s[0]] + rest[0]] + rest[1..]
  }

  /** `Array.prototype.join`. */
  function Join(xs: seq<string>, sep: string): (r: string)
    ensures |xs| == 0 ==> r == []
    ensures |xs| == 1 ==> r == xs[0]
    ensures forall c :: c in r && c !in sep ==> exists i :: 0 <= i < |xs| && c in xs[i]
  {
    if |xs| == 0 then []
    else if |xs| == 1 then xs[0]
    else xs[0] + sep + Join(xs[1..], sep)
  }

  /** Joining the pieces of a split with the separator gives the string back. */
  lemma {:induction false} SplitJoinRoundTrip(s: string, sep: char)
    ensures Join(SplitOn(s, sep), [sep]) == s
    decreases |s|
  {
    if s != [] {
      var rest := SplitOn(s[1..], sep);
      SplitJoinRoundTrip(s[1..], sep);
      if s[0] != sep && |rest| > 1 {
        assert Join(rest, [sep]) == rest[0] + [sep] + Join(rest[1..], [sep]);
      }
    }
  }

  /** A trailing separator yields a trailing empty piece. */
  lemma {:induction false} SplitTrailingSeparator(s: string, sep: char)
    ensures SplitOn(s + [sep], sep) == SplitOn(s, sep) + [[]]
    decreases |s|
  {
    if s == [] {
      assert [sep][1..] == [];
    } else {
      assert (s + [sep])[1..] == s[1..] + [sep];
      SplitTrailingSeparator(s[1..], sep);
    }
  }

  /** With a non-empty separator, a join is empty exactly when there is
      nothing to join or a single empty piece. */
  lemma JoinEmptyIff(xs: seq<string>, sep: string)
    requires sep != []
    ensures Join(xs, sep) == [] <==> |xs| == 0 || (|xs| == 1 && xs[0] == [])
  {
  }

  function DigitChar(d: nat): (c: char)
    requires d < 10
    ensures '0' <= c <= '9' && c as int - '0' as int == d
  {
    (d + '0' as int) as char
  }

  /** The decimal text of a whole number, as a template literal prints it. */
  function NatToDecimal(n: nat): (r: string)
    ensures |r| >= 1
    ensures forall i :: 0 <= i < |r| ==> '0' <= r[i] <= '9'
    ensures |r| > 1 ==> r[0] != '0'
    decreases n
  {
    if n < 10 then [DigitChar(n)] else NatToDecimal(n / 10) + [DigitChar(n % 10)]
  }

  predicate AllDigits(s: string) {
    forall i :: 0 <= i < |s| ==> '0' <= s[i] <= '9'
  }

  /** The number a string of decimal digits denotes. */
  function DecimalValue(s: string): nat
    requires AllDigits(s)
  {
    if s == [] then 0 else DecimalValue(s[..|s| - 1]) * 10 + (s[|s| - 1] as int - '0' as int)
  }

  /** Reading back the printed number gives the number. */
  lemma {:induction false} DecimalRoundTrip(n: nat)
    ensures DecimalValue(NatToDecimal(n)) == n
    decreases n
  {
    if n >= 10 {
      var r := NatToDecimal(n);
      assert r[..|r| - 1] == NatToDecimal(n / 10);
      DecimalRoundTrip(n / 10);
    }
  }
}

=== FILE: upload.dfy ===
/**
 The upload widget's gatekeeper (frontend/src/components/DropUpload.jsx):
 `validate` decides from a file's name, MIME type and size whether it may be
 uploaded and which error the widget shows, and `handleFiles` hands the first
 dropped or picked file on only when it passes.
 */
module Upload {
  import opened Options
  import opened Text

  /** What `validate` reads of a browser `File`. */
  datatype FileInfo = FileInfo(name: string, mimeType: string, size: nat)

  /** Whether `validate` returned true, and the error it left on screen. */
  datatype Verdict = Verdict(ok: bool, error: string)

  /** What `handleFiles` decided, and the file it passed to `onFileSelected`,
      if any. */
  datatype Handled = Handled(verdict: Verdict, selected: Option<FileInfo>)

  const MissingFile := Verdict(false, "")

  /** Each piece of a comma-separated list, trimmed, then lower-cased. */
  function Normalize(pieces: seq<string>): (tokens: seq<string>)
    ensures |tokens| == |pieces|
    ensures forall i :: 0 <= i < |pieces| ==> tokens[i] == ToLower(Trim(pieces[i]))
  {
    if pieces == [] then [] else [ToLower(Trim(pieces[0]))] + Normalize(pieces[1..])
  }

  /** `accept.split(",").map(s => s.trim().toLowerCase())`. */
  function AllowList(accept: string): (allow: seq<string>)
    ensures |allow| >= 1
  {
    Normalize(SplitOn(accept, ','))
  }

  /** An extension token (`.pdf`) accepts a file whose lower-cased name ends
      with it. */
  predicate NameMatches(token: string, name: string) {
    StartsWith(token, ".") && EndsWith(ToLower(name), token)
  }

  /** Any other token, with its first `*` removed, accepts a file whose
      lower-cased MIME type contains it. */
  predicate TypeMatches(token: string, mimeType: string) {
    !StartsWith(token, ".") && Includes(ToLower(mimeType), RemoveFirst(token, '*'))
  }

  /** `allow.some(a => NameMatches(a, name))`. */
  function AnyNameMatch(allow: seq<string>, name: string): (b: bool)
    ensures b <==> exists i :: 0 <= i < |allow| && NameMatches(allow[i], name)
  {
    if allow == [] then false
    else
      NameMatches(allow[0], name) || AnyNameMatch(allow[1..], name)
  }

  /** `allow.some(a => TypeMatches(a, mimeType))`. */
  function AnyTypeMatch(allow: seq<string>, mimeType: string): (b: bool)
    ensures b <==> exists i :: 0 <= i < |allow| && TypeMatches(allow[i], mimeType)
  {
    if allow == [] then false
    else
      TypeMatches(allow[0], mimeType) || AnyTypeMatch(allow[1..], mimeType)
  }

  /** The type check: passes when `accept` is empty, and otherwise when some
      token accepts the file's name or its MIME type. */
  predicate TypeAllowed(f: FileInfo, accept: string) {
    accept == [] || AnyNameMatch(AllowList(accept), f.name) || AnyTypeMatch(AllowList(accept), f.mimeType)
  }

  /** The byte limit for a limit in megabytes. */
  function MaxBytes(maxSizeMB: nat): nat {
    maxSizeMB * 1024 * 1024
  }

  function TypeError(accept: string): string {
    "Invalid file type. Allowed: " + accept
  }

  function SizeError(maxSizeMB: nat): string {
    "File too large. Max " + NatToDecimal(maxSizeMB) + " MB."
  }

  /** `validate`: a missing file fails silently; otherwise the type check
      comes first and the size check second, each failing with its own
      message; a file that passes both leaves no error. */
  function Validate(file: Option<FileInfo>, accept: string, maxSizeMB: nat): (v: Verdict)
    ensures v.ok <==> v.error == [] && file.Some?
    ensures v.ok ==> file.value.size <= MaxBytes(maxSizeMB)
  {
    if file.None? then
      MissingFile
    else if !TypeAllowed(file.value, accept) then
      Verdict(false, TypeError(accept))
    else if file.value.size > MaxBytes(maxSizeMB) then
      Verdict(false, SizeError(maxSizeMB))
    else
      Verdict(true, "")
  }

  /** The file a browser file list holds first, if the list is there and
      not empty (`files?.[0]`). */
  function FirstFile(files: Option<seq<FileInfo>>): (f: Option<FileInfo>)
    ensures f.Some? <==> files.Some? && |files.value| > 0
    ensures f.Some? ==> f.value == files.value[0]
  {
    if files.Some? && |files.value| > 0 then Some(files.value[0]) else None
  }

  /** `handleFiles`: validates the first file and passes it on only when it
      is valid. */
  function HandleFiles(files: Option<seq<FileInfo>>, accept: string, maxSizeMB: nat): (h: Handled)
    ensures h.verdict == Validate(FirstFile(files), accept, maxSizeMB)
    ensures h.selected.Some? <==> h.verdict.ok
    ensures h.selected.Some? ==> files.Some? && |files.value| > 0 && h.selected.value == files.value[0]
  {
    var file := FirstFile(files);
    var v := Validate(file, accept, maxSizeMB);
    Handled(v, if v.ok then file else None)
  }

  /** A declarative statement of when `validate` accepts a file. */
  predicate Acceptable(f: FileInfo, accept: string, maxSizeMB: nat) {
    && (accept == []
        || (exists i :: 0 <= i < |AllowList(accept)| && NameMatches(AllowList(accept)[i], f.name))
        || (exists i :: 0 <= i < |AllowList(accept)| && TypeMatches(AllowList(accept)[i], f.mimeType)))
    && f.size <= MaxBytes(maxSizeMB)
  }

  /** `validate` accepts exactly the acceptable files. */
  lemma ValidateAcceptsIff(f: FileInfo, accept: string, maxSizeMB: nat)
    ensures Validate(Some(f), accept, maxSizeMB).ok <==> Acceptable(f, accept, maxSizeMB)
  {
  }

  /** Without a file, `validate` returns false and leaves the error empty. */
  lemma MissingFileRejected(accept: string, maxSizeMB: nat)
    ensures Validate(None, accept, maxSizeMB) == Verdict(false, "")
  {
  }

  /** With an empty `accept`, only the size decides. */
  lemma EmptyAcceptChecksSizeOnly(f: FileInfo, maxSizeMB: nat)
    ensures Validate(Some(f), "", maxSizeMB).ok <==> f.size <= MaxBytes(maxSizeMB)
  {
  }

  /** A file no token accepts is refused with the type message, whatever
      its size: the type check takes precedence. */
  lemma TypeCheckFirst(f: FileInfo, accept: string, maxSizeMB: nat)
    requires accept != []
    requires forall i :: 0 <= i < |AllowList(accept)| ==>
      !NameMatches(AllowList(accept)[i], f.name) && !TypeMatches(AllowList(accept)[i], f.mimeType)
    ensures Validate(Some(f), accept, maxSizeMB) == Verdict(false, "Invalid file type. Allowed: " + accept)
  {
  }

  /** A file of an allowed type is accepted up to and including the byte
      limit, and refused with the size message at any size beyond it. */
  lemma SizeBoundary(f: FileInfo, accept: string, maxSizeMB: nat)
    requires TypeAllowed(f, accept)
    ensures f.size <= MaxBytes(maxSizeMB) ==> Validate(Some(f), accept, maxSizeMB) == Verdict(true, "")
    ensures f.size > MaxBytes(maxSizeMB) ==>
      Validate(Some(f), accept, maxSizeMB) == Verdict(false, "File too large. Max " + NatToDecimal(maxSizeMB) + " MB.")
  {
  }

  /** Lower-casing leaves every whitespace character alone. */
  lemma LowerKeepsSpace(c: char)
    ensures IsSpace(LowerChar(c)) <==> IsSpace(c)
  {
  }

  /** Lower-casing a trimmed string keeps it trimmed. */
  lemma LowerKeepsTrimmed(s: string)
    requires IsTrimmed(s)
    ensures IsTrimmed(ToLower(s))
  {
    if s != [] {
      LowerKeepsSpace(s[0]);
      LowerKeepsSpace(s[|s| - 1]);
    }
  }

  /** Every token is trimmed, lower-case, and holds no comma. */
  lemma AllowListTokens(accept: string, i: nat)
    requires i < |AllowList(accept)|
    ensures IsTrimmed(AllowList(accept)[i])
    ensures ToLower(AllowList(accept)[i]) == AllowList(accept)[i]
    ensures ',' !in AllowList(accept)[i]
  {
    var piece := SplitOn(accept, ',')[i];
    LowerKeepsTrimmed(Trim(piece));
    ToLowerIdempotent(Trim(piece));
    TrimHasNoNew(piece, ',');
    LowerHasNoNew(Trim(piece), ',');
  }

  /** Trimming keeps only characters of the string. */
  lemma TrimHasNoNew(s: string, c: char)
    requires c !in s
    ensures c !in Trim(s)
  {
    if !AllSpace(s) {
      var lo := SkipSpace(s, 0);
      var hi := SkipSpaceBack(s, |s|);
      assert lo < hi by {
        assert !SpaceAt(s, lo);
      }
      assert Trim(s) == s[lo..hi];
      forall k | 0 <= k < hi - lo
        ensures s[lo..hi][k] != c
      {
        assert s[lo..hi][k] == s[lo + k];
      }
    }
  }

  /** Lower-casing never produces a character that is not a letter from one
      that is not there. */
  lemma LowerHasNoNew(s: string, c: char)
    requires c !in s && !('a' <= c <= 'z')
    ensures c !in ToLower(s)
  {
    forall k | 0 <= k < |s|
      ensures ToLower(s)[k] != c
    {
      assert s[k] != c;
    }
  }

  /** Names that agree up to case are accepted or refused alike, so an
      extension token matches case-insensitively. */
  lemma NameMatchIgnoresCase(token: string, name1: string, name2: string)
    requires ToLower(name1) == ToLower(name2)
    ensures NameMatches(token, name1) <==> NameMatches(token, name2)
  {
  }

  /** Files whose names and types agree up to case get the same verdict. */
  lemma ValidateIgnoresCase(f: FileInfo, g: FileInfo, accept: string, maxSizeMB: nat)
    requires ToLower(f.name) == ToLower(g.name) && ToLower(f.mimeType) == ToLower(g.mimeType)
    requires f.size == g.size
    ensures Validate(Some(f), accept, maxSizeMB) == Validate(Some(g), accept, maxSizeMB)
  {
    var allow := AllowList(accept);
    assert AnyNameMatch(allow, f.name) == AnyNameMatch(allow, g.name) by {
      forall i | 0 <= i < |allow|
        ensures NameMatches(allow[i], f.name) <==> NameMatches(allow[i], g.name)
      {
        NameMatchIgnoresCase(allow[i], f.name, g.name);
      }
    }
  }

  /** An extension token accepts exactly the names whose lower-cased form
      ends with it. */
  lemma ExtensionTokenAccepts(token: string, name: string, mimeType: string)
    requires StartsWith(token, ".")
    ensures NameMatches(token, name) <==> EndsWith(ToLower(name), token)
    ensures !TypeMatches(token, mimeType)
  {
  }

  /** Every text contains the empty text. */
  lemma IncludesEmpty(s: string)
    ensures Includes(s, [])
  {
    assert OccursAt(s, [], 0);
  }

  /** A wildcard MIME token such as `image/` with a star after it accepts every type containing
      the part before the star, in any case. */
  lemma WildcardTokenAccepts(family: string, mimeType: string)
    requires !StartsWith(family, ".") && '*' !in family
    requires Includes(ToLower(mimeType), family)
    ensures TypeMatches(family + "*", mimeType)
  {
    var token := family + "*";
    if family == [] {
      assert token == ['*'];
    } else {
      assert token[0] == family[0];
      assert token[..1] == family[..1];
    }
    RemoveFirstAfter(family, '*');
  }

  /** Removing the first `c` from a text that holds no `c` until its final
      `c` drops that final `c`. */
  lemma {:induction false} RemoveFirstAfter(s: string, c: char)
    requires c !in s
    ensures RemoveFirst(s + [c], c) == s
    decreases |s|
  {
    if s == [] {
      assert [c][1..] == [];
    } else {
      assert (s + [c])[1..] == s[1..] + [c];
      RemoveFirstAfter(s[1..], c);
    }
  }

  /** A blank piece in `accept`, such as the one a trailing comma leaves,
      becomes the empty token, which accepts every MIME type and so every
      file of an allowed size. */
  lemma BlankTokenAcceptsAll(f: FileInfo, accept: string, maxSizeMB: nat, i: nat)
    requires i < |SplitOn(accept, ',')| && AllSpace(SplitOn(accept, ',')[i])
    requires f.size <= MaxBytes(maxSizeMB)
    ensures Validate(Some(f), accept, maxSizeMB) == Verdict(true, "")
  {
    var allow := AllowList(accept);
    assert allow[i] == [];
    assert RemoveFirst(allow[i], '*') == [];
    IncludesEmpty(ToLower(f.mimeType));
    assert TypeMatches(allow[i], f.mimeType);
  }

  /** A trailing comma makes `validate` accept every file of an allowed
      size. */
  lemma TrailingCommaAcceptsAll(f: FileInfo, accept: string, maxSizeMB: nat)
    requires f.size <= MaxBytes(maxSizeMB)
    ensures Validate(Some(f), accept + ",", maxSizeMB) == Verdict(true, "")
  {
    SplitTrailingSeparator(accept, ',');
    var pieces := SplitOn(accept + ",", ',');
    assert pieces[|pieces| - 1] == [];
    BlankTokenAcceptsAll(f, accept + ",", maxSizeMB, |pieces| - 1);
  }

  /** `onFileSelected` receives the first file exactly when it is valid, and
      nothing is passed on for a missing or empty file list. */
  lemma SelectedIffValid(files: Option<seq<FileInfo>>, accept: string, maxSizeMB: nat)
    ensures HandleFiles(files, accept, maxSizeMB).selected.Some? <==>
      files.Some? && |files.value| > 0 && Validate(Some(files.value[0]), accept, maxSizeMB).ok
  {
  }
}
